=== FILE: README.md ===
# Persistency monitor, Rockchip boot-table walk and authentication errors, in Dafny

This project models three pieces of the bmcd baseboard-management daemon and proves properties of them.

- **Application persistency** (`tpi_rs/src/middleware/persistency/app_persistency.rs`). `PersistencyBuilder` collects `(key, serialized default)` pairs. `ApplicationPersistency::new` opens the backing file, creating it if absent, loads the store and, when a write timeout is given, spawns the debounced `filesystem_writer`. `MonitorContext::commit_to_file` writes the serialized store to a sibling `*.new` file opened with create + truncate and then renames it over the real file. `sync_all` does the same and then fsyncs the committed file. The writer loop is a two-state debounce machine. `Idle` is the never-firing placeholder. `Pending(deadline)` means "sleep until the deadline, then commit". A change re-arms the deadline at the latest published timestamp plus the timeout. A closed channel, an overflow in `checked_add` or a failed commit ends the loop.
- **Rockchip boot image walk** (`src/firmware_update/rockusb_fwudate.rs`). `parse_boot_entries` reads the boot header from the first 102 bytes of the image. It then walks the 0x471 records and after them the 0x472 records. Each walk covers `count` record windows of 57 bytes, starting at `offset` with stride `size`, and yields `(type, delay, data slice)`. `BootMode::from` maps a device descriptor to `Maskrom` or `Loader`.
- **Authentication errors** (`src/authentication/authentication_errors.rs`). Covers the `Display` text of every `AuthenticationError` variant and the three `From` conversions into `ParseError`.

Modules, one file each:

- `Wrappers`: Option and Result.
- `Ints`: `u8`/`u16`/`u32` and wrapping `u32` addition.
- `Paths`: `PathBuf::set_extension`.
- `Commit`: the commit protocol over an abstract file system `map<Path, Bytes>`.
- `Builder`: the builder and `new`.
- `Debounce`: the writer loop.
- `Daemon`: a handle with its writer and the flush that `Drop` spawns.
- `RockUsb`: the boot-table walk and the boot mode.
- `AuthErrors`: error rendering and conversions.

How the environment is modelled:

- Time is a natural number of nanoseconds.
- Every fallible I/O step takes the environment's answer as a parameter: `CommitFaults`, `SyncFaults` and `BuildEnv`.
- The store is seen only through its serialized blob.
- `PersistencyStore::new` is a function parameter (`Loader`), and so are the external decoders `RkBootHeader::from_bytes` and `RkBootEntry::from_bytes` (`Decoders`).
- A slice index that would panic is the error `OutOfBounds`.
- The `u32` additions of the range start wrap around, as in a release build. Only `range.start` is ever read, so `range.end` plays no part.

## Model

| member | source | states |
|---|---|---|
| Paths.SetExtension | tpi_rs/src/middleware/persistency/app_persistency.rs:49-50 | `set_extension`: the directory is kept, and a path without a file name (an empty final component, `.` or `..`) is unchanged. Otherwise an empty `ext` leaves the bare stem, and a non-empty `ext` without dots gives a name whose stem is the old stem and whose extension is exactly `ext`. |
| Paths.TempPath | tpi_rs/src/middleware/persistency/app_persistency.rs:49-50 | the path `commit_to_file` writes first lies in the target's directory. A target without a file name is its own temporary path. |
| Paths.TempPathIsTargetIff | tpi_rs/src/middleware/persistency/app_persistency.rs:49-50 | the `*.new` path equals the target exactly when the target has no file name or already has the extension `new` (both directions) |
| Paths.TempPathShape | tpi_rs/src/middleware/persistency/app_persistency.rs:49-50 | for a target with a file name, the temporary file is `<stem>.new`: it has extension `new` and keeps the target's stem |
| Commit.Rename | tpi_rs/src/middleware/persistency/app_persistency.rs:60-62 | the destination takes the source's contents, the source disappears, and every other file is unchanged |
| Commit.CommitToFile | tpi_rs/src/middleware/persistency/app_persistency.rs:48-65 | when the temporary path differs from the target, any failure leaves the target as it was (`Commit.TargetNamedNewIsTruncated` shows the exception). Success happens exactly when no step fails, and then the target holds exactly the blob and the temporary file is gone. An interrupted write leaves only a prefix of the blob in the temporary file. No other file is touched. |
| Commit.CommitTrace | tpi_rs/src/middleware/persistency/app_persistency.rs:52-64 | the sequence of intermediate file systems starts at the state before the commit and ends at the commit's result |
| Commit.CommitIsOldOrNew | tpi_rs/src/middleware/persistency/app_persistency.rs:52-64 | crash consistency: in every intermediate state the target holds its old contents or the complete new blob |
| Commit.TargetNamedNewIsTruncated | tpi_rs/src/middleware/persistency/app_persistency.rs:49-57 | counterexample: for a target already named `*.new`, the truncating open empties the live file, so a crash right then leaves neither version |
| Commit.CommitIgnoresStaleTemp | tpi_rs/src/middleware/persistency/app_persistency.rs:52-57 | truncate, never append: what a stale `*.new` file held does not affect the commit's outcome |
| Commit.CommitIdempotent | tpi_rs/src/middleware/persistency/app_persistency.rs:48-65 | flushing twice with no mutation in between yields an identical file system |
| Commit.SyncAll | tpi_rs/src/middleware/persistency/app_persistency.rs:67-73 | the fsync is issued exactly when the commit and the reopen succeed, and the target then holds the blob. The call succeeds exactly when the commit, the reopen and the fsync all succeed. A failed commit's error is returned as it is. The file contents are exactly those of the commit. |
| Builder.RegisterKey | tpi_rs/src/middleware/persistency/app_persistency.rs:28-34 | exactly one `(key, serialize(default))` pair is appended at the end, and the earlier pairs stay unchanged and in order |
| Builder.DuplicateKeyKept | tpi_rs/src/middleware/persistency/app_persistency.rs:28-34 | registering a name again is not rejected: that name's count rises by one and other names' counts are unchanged |
| Builder.RegisterAllInOrder | tpi_rs/src/middleware/persistency/app_persistency.rs:24-34 | a chain of registrations lists exactly the registered pairs, in call order, after the earlier ones |
| Builder.New | tpi_rs/src/middleware/persistency/app_persistency.rs:83-106 | a failed open changes nothing and reports the open error. Opening creates an empty file only if none existed. `new` succeeds exactly when loading the store from the file's bytes succeeds, and otherwise returns the loader's error. A writer exists exactly when a timeout is given, and it starts idle with that timeout. |
| Builder.Build | tpi_rs/src/middleware/persistency/app_persistency.rs:36-38 | the store lives at `/var/lib/bmcd/bmcd.bin`. Building succeeds exactly when opening it and loading from its bytes succeed. The built store has a writer with the 300 s timeout. |
| Builder.BinDataTempPath | tpi_rs/src/middleware/persistency/app_persistency.rs:48-50 | the shipped path commits through `/var/lib/bmcd/bmcd.new`, a distinct sibling, so the old-or-new guarantee applies |
| Debounce.CheckedAdd | tpi_rs/src/middleware/persistency/app_persistency.rs:134-138 | `Instant::checked_add` succeeds exactly when the sum stays within the largest instant, and then yields the sum |
| Debounce.Step | tpi_rs/src/middleware/persistency/app_persistency.rs:115-149 | the loop stops for good once stopped. A commit happens exactly when an armed deadline fires. The only deadline ever armed is the latest change's stamp plus the timeout. The writer returns to idle after a successful commit. Closed channel, overflow and commit failure each stop the loop, exactly in their own case. |
| Debounce.Run | tpi_rs/src/middleware/persistency/app_persistency.rs:115-149 | the loop over a sequence of observed events commits at most once per turn, and only at the instant a write future completes. A run in which no write future completes commits nothing. |
| Debounce.RunStep | tpi_rs/src/middleware/persistency/app_persistency.rs:115-149 | handling an event is one turn of the loop from the state before it: the run ends in that turn's next state and records the event's instant exactly when the turn commits |
| Debounce.RunCommitsExtend | tpi_rs/src/middleware/persistency/app_persistency.rs:115-149 | running the loop further only appends commits: the commits of a prefix of the events are a prefix of the commits of the whole run |
| Debounce.CommitRecorded | tpi_rs/src/middleware/persistency/app_persistency.rs:126-148 | every turn on which an armed deadline fires is recorded as a commit at that turn's instant |
| Debounce.CommitHasStep | tpi_rs/src/middleware/persistency/app_persistency.rs:126-148 | every recorded commit comes from a turn on which an armed deadline fired, at that instant |
| Debounce.RunCommitsExactly | tpi_rs/src/middleware/persistency/app_persistency.rs:115-149 | the run's commits are exactly the instants of the turns on which an armed deadline fires (both directions) |
| Debounce.RearmForgetsOldDeadline | tpi_rs/src/middleware/persistency/app_persistency.rs:130-148 | a change replaces any armed deadline: the outcome does not depend on the previous state |
| Debounce.ArmedByPreviousChange | tpi_rs/src/middleware/persistency/app_persistency.rs:126-148 | a pending deadline was armed by the event just before it, which is a change, at that change's stamp plus the timeout. At most one commit is pending at a time. |
| Debounce.QuietBeforeCommit | tpi_rs/src/middleware/persistency/app_persistency.rs:118-148 | debounce: with prompt observation, every commit at instant c follows a change at or before c minus the timeout, and no change was published strictly inside that window |
| Debounce.ChangeBetweenCommits | tpi_rs/src/middleware/persistency/app_persistency.rs:126-129 | after a commit the writer waits on the placeholder: between two commits there is always a new change |
| Debounce.CommitsAtMostChanges | tpi_rs/src/middleware/persistency/app_persistency.rs:118-148 | coalescing: a run performs no more commits than it observed changes, and one fewer while a deadline is still armed |
| Debounce.StoppedIsFinal | tpi_rs/src/middleware/persistency/app_persistency.rs:118-123 | once the loop has exited it stays exited and commits nothing |
| Debounce.NoCommitDuringBurst | tpi_rs/src/middleware/persistency/app_persistency.rs:200-231 | six changes 100 ms apart against a 200 ms timeout: no commit happens before 800 ms |
| Daemon.Act | tpi_rs/src/middleware/persistency/app_persistency.rs:101-150 | only a mutation changes the store, and only a commit changes the file system. A `set` of `b` makes the store's serialized form `b` and changes nothing else. A change notification steps the writer with `Changed(stamp)`, and a closed channel steps it with `Closed`. Without a writer, only a flush reaches the file system. A deadline fires only while one is armed, and otherwise nothing happens. An armed deadline runs `commit_to_file` on the store's current serialized form, and the writer then takes the loop's next state for that commit's success or failure. A flush runs `sync_all` on the current serialized form. |
| Daemon.FiredDeadlineCommitsBlob | tpi_rs/src/middleware/persistency/app_persistency.rs:126-148 | a deadline that fires without a fault on an armed writer leaves the backing file holding exactly the store's current serialized form, and puts the writer back on the placeholder |
| Daemon.SetNotifyFireCommits | tpi_rs/src/middleware/persistency/app_persistency.rs:118-148 | the write-back path end to end: a `set` of `b`, its notification seen by a running writer whose deadline does not overflow, and that deadline firing without a fault leave the file holding exactly `b` and the writer back on the placeholder |
| Daemon.NoWriterOnlyExplicitFlushes | tpi_rs/src/middleware/persistency/app_persistency.rs:102-104 | with no write timeout, the file system evolves exactly as under the mutations and the drop flushes alone |
| Daemon.FileHoldsAnImage | tpi_rs/src/middleware/persistency/app_persistency.rs:52-64 | throughout any run, the backing file holds its original contents or one complete serialized form the store had |
| Daemon.NoCommitNoChange | tpi_rs/src/middleware/persistency/app_persistency.rs:213-231 | a run without commits leaves the file system unchanged, so a second instance reads the previously committed contents |
| Daemon.ReopenReadsFlushed | tpi_rs/src/middleware/persistency/app_persistency.rs:180-197 | after a successful flush, reopening the same path loads the store from exactly the flushed blob, with no writer |
| Ints.WrappingAdd32 | src/firmware_update/rockusb_fwudate.rs:126 | `range.start += header.size as u32` in a release build: the plain sum when it fits in 32 bits, and otherwise the sum minus 2^32 |
| RockUsb.PositionIsStrided | src/firmware_update/rockusb_fwudate.rs:105-127 | after k advances the range starts at `offset + k*size` modulo 2^32 |
| RockUsb.ParseBootEntry | src/firmware_update/rockusb_fwudate.rs:133-138 | a record is decoded exactly when its 57-byte window at `range.start` lies inside the image, and the result is then the decoding of exactly those 57 bytes. Otherwise the result is the out-of-bounds failure. |
| RockUsb.ParseBootEntryReadsWindow | src/firmware_update/rockusb_fwudate.rs:133-138 | a record depends only on its own window: two images that agree on the 57 bytes at `start` decode the same record there |
| RockUsb.Walk | src/firmware_update/rockusb_fwudate.rs:99-131 | a successful walk returns at most `count` items, all of the walked type. Its only failure is out-of-bounds. |
| RockUsb.WalkFailsPastImage | src/firmware_update/rockusb_fwudate.rs:105-137 | reading past the image fails the walk with out-of-bounds. This holds when the `j`-th record read (`j < count`, all earlier ones non-zero and in bounds) has its window past the end, or has non-zero size and a data slice past the end. |
| RockUsb.ParseBootHeaderEntry | src/firmware_update/rockusb_fwudate.rs:99-131 | the source's loop, with its `continue` and range advance, computes exactly the recursive walk |
| RockUsb.WalkItemAt | src/firmware_update/rockusb_fwudate.rs:105-127 | item j comes from the record at `offset + j*size` (wrapping), which has non-zero size. Its data is exactly `blob[data_offset..data_offset+data_size]`, lies in bounds and has length `data_size`. |
| RockUsb.WalkStopsAtZeroSize | src/firmware_update/rockusb_fwudate.rs:116-127 | when fewer than `count` items come back, the record at the next position has size zero |
| RockUsb.ZeroSizeEntrySticks | src/firmware_update/rockusb_fwudate.rs:116-119 | a size-zero record is re-read on every remaining iteration, so nothing after it is returned |
| RockUsb.ParseBootEntries | src/firmware_update/rockusb_fwudate.rs:87-97 | an image shorter than the header is out of bounds, and an undecodable header is `HeaderCorrupt` (both directions). Parsing succeeds exactly when the header decodes and both walks succeed. The result is then the 0x471 walk's items followed by the 0x472 walk's items, each kind at most its `count`. A failing walk's error is returned, the 0x471 walk's first. |
| RockUsb.WalkAdvancing | src/firmware_update/rockusb_fwudate.rs:116-127 | corrected walk: at most `count` items, all of the walked type |
| RockUsb.NonZeroIndicesExact | src/firmware_update/rockusb_fwudate.rs:116-127 | the reference list for the intended walk holds exactly the indices of the strided records that lie in the image and have non-zero size, each once and in increasing order |
| RockUsb.WalkAdvancingItemAt | src/firmware_update/rockusb_fwudate.rs:116-127 | item j of the corrected walk is the item of the j-th record of non-zero size, and its data slice lies in the image |
| RockUsb.WalkAdvancingReturnsEveryRecord | src/firmware_update/rockusb_fwudate.rs:116-127 | the corrected walk returns one item per non-zero-size record among the `count` strided records. Item j is `(type, data_delay, blob[data_offset..data_offset+data_size])` of the j-th such record, whatever sizes come before it. |
| RockUsb.ZeroSizeEntryHidesNextRecord | src/firmware_update/rockusb_fwudate.rs:116-127 | counterexample: with a size-zero record followed by a real one, the code as written returns nothing and the corrected walk returns the real record |
| RockUsb.BootModeFrom | src/firmware_update/rockusb_fwudate.rs:160-167 | total: `Maskrom` exactly for an even sub-minor version and `Loader` exactly for an odd one, so the `unreachable!` arm is never taken |
| RockUsb.DiscriminantIsParity | src/firmware_update/rockusb_fwudate.rs:154-167 | the mode's discriminant (`Maskrom = 0`, `Loader = 1`) equals the sub-minor version's parity |
| AuthErrors.DecimalString | src/authentication/authentication_errors.rs:35-39 | an integer renders as a non-empty string of digits with no leading zero |
| AuthErrors.DecimalRoundTrip | src/authentication/authentication_errors.rs:35-39 | reading back a rendered integer gives the integer |
| AuthErrors.Display | src/authentication/authentication_errors.rs:28-50 | every variant renders as a non-empty text that opens or closes with that variant's fixed words. The parse-error and header texts start with their prefix and are exactly as long as the prefix plus the payload. A scheme text ends with its suffix and is exactly as long as the scheme plus the suffix. The no-match and expired texts start with their prefix and end with their suffix. |
| AuthErrors.DisplayRoundTrip | src/authentication/authentication_errors.rs:31-47 | each text consists of its variant's fixed words around the unchanged payload (`error trying to parse credentials: e`, `token t is not registered`, `cannot parse authorization header: t`, `s authentication not supported`, the two fixed texts). Knowing the variant, the error is read back from its text. |
| AuthErrors.ExpiredRoundTrip | src/authentication/authentication_errors.rs:35-39 | `token expired Ns ago` reports the whole seconds elapsed, and zero if the instant is in the future |
| AuthErrors.FixedTextsUnambiguous | src/authentication/authentication_errors.rs:34-41 | an error renders as `credentials incorrect` exactly when it is `IncorrectCredentials`, and as `no authorization header provided` exactly when it is `Empty` |
| AuthErrors.DisplayInjectivePerVariant | src/authentication/authentication_errors.rs:31-47 | within one variant, equal texts mean equal errors |
| AuthErrors.DisplayAmbiguousAcrossVariants | src/authentication/authentication_errors.rs:31-47 | across variants they do not: for every payload `m`, the scheme `error trying to parse credentials: m` renders exactly as the parse error carrying `m authentication not supported` |
| AuthErrors.FromJson | src/authentication/authentication_errors.rs:54-58 | a `serde_json` error becomes `ParseError` carrying its message unchanged |
| AuthErrors.FromBase64 | src/authentication/authentication_errors.rs:60-64 | a `base64` decode error becomes `ParseError` carrying its message unchanged |
| AuthErrors.FromUtf8 | src/authentication/authentication_errors.rs:66-70 | a UTF-8 error becomes `ParseError` carrying its message unchanged |
| AuthErrors.ConversionsRenderForeignText | src/authentication/authentication_errors.rs:54-70 | every converted error renders as `error trying to parse credentials: ` followed by the foreign error's own text |

## Left out

- The tokio runtime is replaced by an input sequence of timed events. `spawn` and the fairness of `select!` are not modelled. Replacing a sleeping write future when a change arrives is modelled: `Debounce.Step` re-arms the deadline. What is not modelled is `select!` dropping the future after its sleep, while `commit_to_file` is inside the open, the write or the rename (`app_persistency.rs` lines 118-124). Such a drop can leave a truncated `bmcd.new`. Because `tokio::fs` runs the rename on a blocking thread, it can also complete a rename that `Debounce` never counts as a commit. `Admissible` states what tokio guarantees: instants never go backwards, and a deadline fires only once it has passed.
- Debounce.QuietBeforeCommit: assumes every change is observed at the instant it is published (`Prompt`). A watcher that lags behind can let a deadline fire even though a newer change was already published.
- Real file I/O (`OpenOptions`, `rename`, `fsync`) becomes an abstract map from paths to bytes. Durability against power loss is only the `fsynced` flag of `SyncAll`.
- `MonitorContext` is private, so the only caller of `sync_all` is the task that `Drop` spawns (`app_persistency.rs` lines 161-169). That task is fire-and-forget with no completion guarantee. `Daemon.Flush` is that task's `sync_all`, and `Daemon.ReopenReadsFlushed` assumes it completed.
- Daemon.Act: each commit, from the writer or from the drop flush, is one atomic step. Commits never interleave in this model. In the code the writer holds its own `Arc<MonitorContext>` (`app_persistency.rs` lines 103 and 140) and keeps running after the handle is dropped. Its `commit_to_file` and the drop flush's can then truncate and write the same `bmcd.new` concurrently.
- Daemon.FileHoldsAnImage: holds only under that atomicity. It does not cover two overlapping commits sharing `bmcd.new`, nor a commit future dropped in the middle.
- Daemon.NoCommitNoChange: the write-back scenario is proved in two parts that are not joined. `Debounce.NoCommitDuringBurst` shows, with instants, that no commit happens before 800 ms. `Daemon.NoCommitNoChange` shows, with the file system, that a run without a fired deadline or a flush leaves the file untouched. `Daemon` actions carry no instants, so `DeadlineFires` is not tied to the deadline having passed.
- `PersistencyStore` and bincode are opaque. The store is its serialized blob, `new` takes a `Loader`, and `register_key` takes a serializer. The `unwrap` on `bincode::serialize` is not modelled: the serializer is total.
- Daemon.Act: a `set` and its change notification are separate actions (`Mutate`, `Observe`). The single-slot watch channel's coalescing therefore appears only as the timestamp a change event carries.
- The USB plumbing is left out: `new_rockusb_transport`, `download_boot`, `load_boot_entries`, re-enumeration and the sleeps.
- The embedded SPL loader image's contents are not modelled.
- `RkBootHeader::from_bytes` and `RkBootEntry::from_bytes` are parameters (`Decoders`). The external crate is not part of this model. The window sizes 102 and 57 are the Rockchip boot-image layout's header and record sizes.
- UTF-16 decoding of record names and all logging are left out.
- RockUsb.BootModeFrom: takes the USB version as reported. `rusb`'s decoding of `bcdUSB` into major, minor and sub-minor is not modelled.
- A path is its parent directories and its final component as `components()` yields them. Rust's normalisation of the text, which drops a `.` after the first component and merges repeated separators, is not modelled.
- Paths.SetExtension: the new extension is stated only for an `ext` without dots. With a dotted `ext`, `extension()` returns only the part after the last dot, which the contract does not spell out.
- Paths.TempPath: its own contract gives only the directory and the no-file-name case. The `<stem>.new` shape is `Paths.TempPathShape`, kept separate so that the commit proofs do not carry the dot search.
- AuthErrors.Display: its own contract gives only the fixed words and lengths of each text. The exact texts, payload included, follow from `AuthErrors.DisplayRoundTrip` and `AuthErrors.ExpiredRoundTrip`.
- The `to_string` texts of `serde_json::Error`, `base64::DecodeError` and `Utf8Error` are opaque strings.
- An `Instant` is a natural number of nanoseconds with a configurable largest value (`maxInstant`). The real bound depends on the platform.

## Findings

| source | as written | input that shows it | evidently intended | confidence | as-written member | corrected member |
|---|---|---|---|---|---|---|
| src/firmware_update/rockusb_fwudate.rs:116-127 | A record of size zero is skipped with `continue` before the range is advanced. Every later iteration re-reads the same record and skips it again, so no record after it is returned. | `count = 2` with a size-zero record followed by a record of size 1: the code returns no items | skip only that record, as the "skipping" log line says, and go on to the next one | medium, not executed | RockUsb.ZeroSizeEntryHidesNextRecord | RockUsb.WalkAdvancingReturnsEveryRecord |

`RockUsb.ParseBootEntries` keeps the code's behaviour (`RockUsb.Walk`), because that is what the flashing path runs. `RockUsb.WalkAdvancing` is the corrected walk.

=== FILE: autherrors.dfy ===
/**
 * `AuthenticationError`: its `Display` text and the conversions from the
 * foreign parse errors. The text of a foreign error is what its `to_string()`
 * yields and is carried as an opaque string. `TokenExpired`'s text depends on
 * the current instant, which is passed in (`now`, in nanoseconds).
 */
module AuthErrors {
  import opened Wrappers
  import Seqs

  datatype AuthenticationError =
    | ParseError(message: string)
    | IncorrectCredentials
    | TokenExpired(instant: nat)
    | NoMatch(token: string)
    | HttpParseError(header: string)
    | SchemeNotSupported(scheme: string)
    | Empty

  const ParsePrefix := "error trying to parse credentials: "
  const IncorrectText := "credentials incorrect"
  const ExpiredPrefix := "token expired "
  const ExpiredSuffix := "s ago"
  const NoMatchPrefix := "token "
  const NoMatchSuffix := " is not registered"
  const EmptyText := "no authorization header provided"
  const HttpPrefix := "cannot parse authorization header: "
  const SchemeSuffix := " authentication not supported"

  const NanosPerSecond: nat := 1_000_000_000

  /** The decimal digit of `d`. */
  function Digit(d: nat): (c: char)
    requires d < 10
    ensures '0' <= c <= '9' && (c as int) - ('0' as int) == d
  {
    (('0' as int) + d) as char
  }

  predicate IsDigits(s: string) {
    forall i | 0 <= i < |s| :: '0' <= s[i] <= '9'
  }

  /** `{}` of an integer: its shortest decimal notation. */
  function DecimalString(n: nat): (s: string)
    ensures |s| > 0 && IsDigits(s)
    ensures |s| > 1 ==> s[0] != '0'
  {
    if n < 10 then [Digit(n)] else DecimalString(n / 10) + [Digit(n % 10)]
  }

  /** The value of a non-empty string of decimal digits. */
  function DecimalValue(s: string): Option<nat> {
    if |s| == 0 || !IsDigits(s) then None
    else if |s| == 1 then Some((s[0] as int) - ('0' as int))
    else
      var front := DecimalValue(s[..|s| - 1]);
      assert IsDigits(s[..|s| - 1]);
      Some(front.value * 10 + ((s[|s| - 1] as int) - ('0' as int)))
  }

  /** Reading back a rendered integer gives the integer. */
  lemma {:induction false} DecimalRoundTrip(n: nat)
    ensures DecimalValue(DecimalString(n)) == Some(n)
  {
    if n >= 10 {
      DecimalRoundTrip(n / 10);
      var s := DecimalString(n);
      assert s[..|s| - 1] == DecimalString(n / 10);
    }
  }

  /** `Instant::now().duration_since(instant).as_secs()`: whole seconds
      elapsed, zero when `instant` lies in the future (the subtraction saturates). */
  function ElapsedSeconds(instant: nat, now: nat): nat {
    if now <= instant then 0 else (now - instant) / NanosPerSecond
  }

  /** `impl Display for AuthenticationError`. */
  function Display(e: AuthenticationError, now: nat): (s: string)
    ensures |s| > 0
    // each variant's text opens or closes with its own fixed words
    ensures e.ParseError? ==> HasPrefix(s, ParsePrefix) && |s| == |ParsePrefix| + |e.message|
    ensures e.HttpParseError? ==> HasPrefix(s, HttpPrefix) && |s| == |HttpPrefix| + |e.header|
    ensures e.NoMatch? ==> HasPrefix(s, NoMatchPrefix) && HasSuffix(s, NoMatchSuffix)
    ensures e.SchemeNotSupported? ==> HasSuffix(s, SchemeSuffix) && |s| == |e.scheme| + |SchemeSuffix|
    ensures e.TokenExpired? ==> HasPrefix(s, ExpiredPrefix) && HasSuffix(s, ExpiredSuffix)
  {
    match e
    case ParseError(m) => ParsePrefix + m
    case IncorrectCredentials => IncorrectText
    case TokenExpired(i) => ExpiredPrefix + DecimalString(ElapsedSeconds(i, now)) + ExpiredSuffix
    case NoMatch(t) => NoMatchPrefix + t + NoMatchSuffix
    case Empty => EmptyText
    case HttpParseError(t) => HttpPrefix + t
    case SchemeNotSupported(scheme) => scheme + SchemeSuffix
  }

  /** Which variant a text is known to come from. */
  datatype Kind = KindParse | KindIncorrect | KindExpired | KindNoMatch | KindHttp | KindScheme | KindEmpty

  function KindOf(e: AuthenticationError): Kind {
    match e
    case ParseError(_) => KindParse
    case IncorrectCredentials => KindIncorrect
    case TokenExpired(_) => KindExpired
    case NoMatch(_) => KindNoMatch
    case HttpParseError(_) => KindHttp
    case SchemeNotSupported(_) => KindScheme
    case Empty => KindEmpty
  }

  predicate HasPrefix(s: string, p: string) {
    |p| <= |s| && s[..|p|] == p
  }

  predicate HasSuffix(s: string, x: string) {
    |x| <= |s| && s[|s| - |x|..] == x
  }

  /** Read an error of a known variant back from its text. An expired
      token's text keeps only the elapsed seconds, so that variant is read
      back by `ExpiredSecondsOf` instead. */
  function Recover(k: Kind, s: string): Option<AuthenticationError> {
    match k
    case KindParse => if HasPrefix(s, ParsePrefix) then Some(ParseError(s[|ParsePrefix|..])) else None
    case KindIncorrect => if s == IncorrectText then Some(IncorrectCredentials) else None
    case KindExpired => None
    case KindNoMatch =>
      if |NoMatchPrefix| + |NoMatchSuffix| <= |s| && HasPrefix(s, NoMatchPrefix) && HasSuffix(s, NoMatchSuffix)
      then Some(NoMatch(s[|NoMatchPrefix|..|s| - |NoMatchSuffix|])) else None
    case KindHttp => if HasPrefix(s, HttpPrefix) then Some(HttpParseError(s[|HttpPrefix|..])) else None
    case KindScheme => if HasSuffix(s, SchemeSuffix) then Some(SchemeNotSupported(s[..|s| - |SchemeSuffix|])) else None
    case KindEmpty => if s == EmptyText then Some(Empty) else None
  }

  /** The seconds an expired-token text reports. */
  function ExpiredSecondsOf(s: string): Option<nat> {
    if |ExpiredPrefix| + |ExpiredSuffix| <= |s| && HasPrefix(s, ExpiredPrefix) && HasSuffix(s, ExpiredSuffix)
    then DecimalValue(s[|ExpiredPrefix|..|s| - |ExpiredSuffix|]) else None
  }

  /** Every variant's text carries its payload unchanged between the fixed
      words: knowing the variant, the error is read back from its text. */
  lemma DisplayRoundTrip(e: AuthenticationError, now: nat)
    requires !e.TokenExpired?
    ensures Recover(KindOf(e), Display(e, now)) == Some(e)
  {
  }

  /** An expired token's text reports the whole seconds elapsed since it expired. */
  lemma ExpiredRoundTrip(instant: nat, now: nat)
    ensures ExpiredSecondsOf(Display(TokenExpired(instant), now)) == Some(ElapsedSeconds(instant, now))
  {
    var d := DecimalString(ElapsedSeconds(instant, now));
    var s := Display(TokenExpired(instant), now);
    assert s == ExpiredPrefix + d + ExpiredSuffix;
    assert s[..|ExpiredPrefix|] == ExpiredPrefix;
    assert s[|s| - |ExpiredSuffix|..] == ExpiredSuffix;
    assert s[|ExpiredPrefix|..|s| - |ExpiredSuffix|] == d;
    DecimalRoundTrip(ElapsedSeconds(instant, now));
  }

  /** Within one variant the text determines the error. */
  lemma DisplayInjectivePerVariant(a: AuthenticationError, b: AuthenticationError, now: nat)
    requires KindOf(a) == KindOf(b) && !a.TokenExpired?
    requires Display(a, now) == Display(b, now)
    ensures a == b
  {
    DisplayRoundTrip(a, now);
    DisplayRoundTrip(b, now);
  }

  /** The two fixed texts identify their variant: no other error, at any
      instant, renders as "credentials incorrect" or as "no authorization
      header provided". */
  lemma FixedTextsUnambiguous(e: AuthenticationError, now: nat)
    ensures Display(e, now) == IncorrectText <==> e == IncorrectCredentials
    ensures Display(e, now) == EmptyText <==> e == Empty
  {
  }

  /** Across variants it does not: an unsupported scheme whose name looks like
      a parse-error text renders exactly like a parse error. */
  lemma DisplayAmbiguousAcrossVariants(m: string, now: nat)
    ensures Display(SchemeNotSupported(ParsePrefix + m), now) == Display(ParseError(m + SchemeSuffix), now)
  {
    Seqs.ConcatAssoc(ParsePrefix, m, SchemeSuffix);
  }

  /** `serde_json::Error`, `base64::DecodeError` and `std::str::Utf8Error`,
      each seen through its `to_string()`. */
  datatype JsonError = JsonError(text: string)
  datatype Base64Error = Base64Error(text: string)
  datatype Utf8Error = Utf8Error(text: string)

  function FromJson(e: JsonError): (r: AuthenticationError)
    ensures r.ParseError? && r.message == e.text
  {
    ParseError(e.text)
  }

  function FromBase64(e: Base64Error): (r: AuthenticationError)
    ensures r.ParseError? && r.message == e.text
  {
    ParseError(e.text)
  }

  function FromUtf8(e: Utf8Error): (r: AuthenticationError)
    ensures r.ParseError? && r.message == e.text
  {
    ParseError(e.text)
  }

  /** All three conversions render as the parse-error words followed by the
      foreign error's own text, at any instant. */
  lemma ConversionsRenderForeignText(j: JsonError, b: Base64Error, u: Utf8Error, now: nat)
    ensures Display(FromJson(j), now) == ParsePrefix + j.text
    ensures Display(FromBase64(b), now) == ParsePrefix + b.text
    ensures Display(FromUtf8(u), now) == ParsePrefix + u.text
  {
  }
}

=== FILE: builder.dfy ===
/**
 * `PersistencyBuilder` and `ApplicationPersistency::new`: the builder keeps
 * the registered keys with their serialized defaults in registration order;
 * building opens (creating if absent) the backing file, loads the store from
 * it and, when a write timeout is given, starts the debounced writer.
 */
module Builder {
  import opened Wrappers
  import opened Ints
  import opened Paths
  import opened Commit
  import Debounce

  type Key = string

  /** The builder's ordered list of `(key, serialized default)` pairs. */
  datatype PersistencyBuilder = PersistencyBuilder(keys: seq<(Key, Bytes)>)

  /** `/var/lib/bmcd/bmcd.bin`. */
  const BinData := Path(["var", "lib", "bmcd"], "bmcd.bin")

  /** `WRITE_BACK_TIMEOUT`, 300 seconds, in nanoseconds. */
  const WriteBackTimeout: nat := 300 * 1_000_000_000

  /** `register_key`: the default is serialized once, at registration. */
  function RegisterKey<T>(b: PersistencyBuilder, key: Key, default: T, serialize: T -> Bytes): (r: PersistencyBuilder)
    ensures |r.keys| == |b.keys| + 1
    ensures r.keys[..|b.keys|] == b.keys
    ensures r.keys[|b.keys|] == (key, serialize(default))
  {
    PersistencyBuilder(b.keys + [(key, serialize(default))])
  }

  /** How many registrations carry the name `key`. */
  function Occurrences(keys: seq<(Key, Bytes)>, key: Key): nat {
    if |keys| == 0 then 0
    else Occurrences(keys[..|keys| - 1], key) + (if keys[|keys| - 1].0 == key then 1 else 0)
  }

  /** Registering a name again is not rejected: the new pair is kept next to
      the earlier one, whose default is left as it was. */
  lemma DuplicateKeyKept<T>(b: PersistencyBuilder, key: Key, default: T, serialize: T -> Bytes)
    ensures Occurrences(RegisterKey(b, key, default, serialize).keys, key) == Occurrences(b.keys, key) + 1
    ensures forall other | other != key ::
              Occurrences(RegisterKey(b, key, default, serialize).keys, other) == Occurrences(b.keys, other)
  {
  }

  /** A sequence of registrations of one value type, applied left to right. */
  function RegisterAll<T>(b: PersistencyBuilder, regs: seq<(Key, T)>, serialize: T -> Bytes): PersistencyBuilder
    decreases |regs|
  {
    if |regs| == 0 then b
    else RegisterAll(RegisterKey(b, regs[0].0, regs[0].1, serialize), regs[1..], serialize)
  }

  /** A chain of `register_key` calls lists exactly the registered pairs, in
      call order, after whatever was registered before. */
  lemma {:induction false} RegisterAllInOrder<T>(b: PersistencyBuilder, regs: seq<(Key, T)>, serialize: T -> Bytes)
    ensures var r := RegisterAll(b, regs, serialize).keys;
            |r| == |b.keys| + |regs|
            && r[..|b.keys|] == b.keys
            && forall i | 0 <= i < |regs| :: r[|b.keys| + i] == (regs[i].0, serialize(regs[i].1))
    decreases |regs|
  {
    if |regs| > 0 {
      var b' := RegisterKey(b, regs[0].0, regs[0].1, serialize);
      RegisterAllInOrder(b', regs[1..], serialize);
      var r := RegisterAll(b', regs[1..], serialize).keys;
      assert r[..|b.keys|] == r[..|b'.keys|][..|b.keys|];
      forall i | 0 <= i < |regs|
        ensures r[|b.keys| + i] == (regs[i].0, serialize(regs[i].1))
      {
        if i > 0 {
          assert regs[1..][i - 1] == regs[i];
        }
      }
    }
  }

  /** A running writer task: its configuration and its state. */
  datatype WriterTask = WriterTask(cfg: Debounce.Config, state: Debounce.Writer)

  /** The value `ApplicationPersistency::new` returns: the monitor context
      (backing file and the store, seen through its serialized blob) and the
      background writer, if one was spawned. */
  datatype Persistency = Persistency(file: Path, blob: Bytes, writer: Option<WriterTask>)

  datatype BuildError = Io(io: IoError) | Load(reason: string)

  /** What opening the backing file may meet, and the largest representable
      instant (which bounds the writer's deadline arithmetic). */
  datatype BuildEnv = BuildEnv(openFails: bool, maxInstant: nat)

  /** `PersistencyStore::new`, which is not part of this model: from the
      registered keys and the file's bytes to the store's serialized form, or
      an error. */
  type Loader = (seq<(Key, Bytes)>, Bytes) -> Result<Bytes, string>

  /** `ApplicationPersistency::new(keys, path, write_timeout)`: the resulting
      file system, paired with the handle or the error. */
  function New(keys: seq<(Key, Bytes)>, path: Path, writeTimeout: Option<nat>, fs: FileSystem,
               env: BuildEnv, load: Loader): (r: (FileSystem, Result<Persistency, BuildError>))
    // a failed open changes nothing
    ensures env.openFails ==> r.0 == fs && r.1 == Failure(Io(OpenFailed(path)))
    // opening creates an empty file when there was none, and touches nothing else
    ensures !env.openFails ==> r.0 == (if path in fs then fs else fs[path := []])
    // the store is loaded from exactly the bytes the file held, and `new`
    // succeeds exactly when that load does, passing on the loader's error
    ensures !env.openFails ==> path in r.0 && (r.1.Success? <==> load(keys, r.0[path]).Success?)
    ensures !env.openFails && load(keys, r.0[path]).Failure? ==> r.1 == Failure(Load(load(keys, r.0[path]).error))
    ensures r.1.Success? ==> load(keys, Lookup(r.0, path).value) == Success(r.1.value.blob)
    ensures r.1.Success? ==> r.1.value.file == path
    // a writer exists exactly when a write timeout was given, and it starts idle
    ensures r.1.Success? ==> (r.1.value.writer.None? <==> writeTimeout.None?)
    ensures r.1.Success? && writeTimeout.Some? ==>
              r.1.value.writer.value == WriterTask(Debounce.Config(writeTimeout.value, env.maxInstant), Debounce.Idle)
  {
    if env.openFails then (fs, Failure(Io(OpenFailed(path))))
    else
      var fs' := if path in fs then fs else fs[path := []];
      match load(keys, fs'[path])
      case Failure(e) => (fs', Failure(Load(e)))
      case Success(blob) =>
        var writer := match writeTimeout
                      case None => None
                      case Some(d) => Some(WriterTask(Debounce.Config(d, env.maxInstant), Debounce.Idle));
        (fs', Success(Persistency(path, blob, writer)))
  }

  /** `PersistencyBuilder::build`: the fixed path and the five-minute write-back timeout. */
  function Build(b: PersistencyBuilder, fs: FileSystem, env: BuildEnv, load: Loader): (r: (FileSystem, Result<Persistency, BuildError>))
    ensures r.1.Success? ==> r.1.value.file == BinData && BinData in r.0
    ensures r.1.Success? ==> r.1.value.writer.Some? && r.1.value.writer.value.cfg.timeout == WriteBackTimeout
    ensures r.1.Success? ==> load(b.keys, Lookup(r.0, BinData).value) == Success(r.1.value.blob)
    // success exactly when the open and the load of `bmcd.bin` succeed
    ensures !env.openFails ==> BinData in r.0 && (r.1.Success? <==> load(b.keys, r.0[BinData]).Success?)
    ensures env.openFails ==> r == (fs, Failure(Io(OpenFailed(BinData))))
  {
    New(b.keys, BinData, Some(WriteBackTimeout), fs, env, load)
  }

  /** The commits of the built store go to `/var/lib/bmcd/bmcd.new`, a distinct
      sibling, so the commit protocol's old-or-new guarantee applies. */
  lemma BinDataTempPath()
    ensures TempPath(BinData) == Path(["var", "lib", "bmcd"], "bmcd.new")
    ensures TempPath(BinData) != BinData
  {
    var n := BinData.name;
    assert n == "bmcd.bin";
    assert LastDot(n) == 4 by {
      assert n[4] == '.';
      assert LastDot(n[..7]) == 4 by {
        assert n[..7][..6][..5] == "bmcd.";
      }
    }
  }
}

=== FILE: commit.dfy ===
/**
 * The commit protocol of `MonitorContext` over an abstract file system: the
 * serialized store is written to a sibling `*.new` file emptied with
 * create + truncate, and that file is then renamed over the real one.
 * `sync_all` additionally reopens the committed file and forces it to disk.
 */
module Commit {
  import opened Wrappers
  import opened Ints
  import opened Paths

  /** The file system, as the contents of every existing file. */
  type FileSystem = map<Path, Bytes>

  /** What a completed commit reports to the writer loop. The loop's other
      event, a store change, is `Debounce.Changed`. */
  datatype MonitorEvent = PersistencyWritten

  datatype IoError =
    | OpenFailed(path: Path)
    | WriteFailed(path: Path)
    | RenameFailed(from: Path, to: Path)   // "permanent damaged persistency binary"
    | SyncFailed(path: Path)

  /** The environment's answer to every fallible step of one commit:
      whether opening the temporary file fails, whether writing stops with an
      error after some number of bytes, and whether the rename fails. */
  datatype CommitFaults = CommitFaults(openFails: bool, writeStopsAfter: Option<nat>, renameFails: bool)

  const NoFaults := CommitFaults(false, None, false)

  /** A file-system effect together with the operation's result. */
  datatype Outcome<+T> = Outcome(fs: FileSystem, result: Result<T, IoError>)

  function Lookup(fs: FileSystem, p: Path): Option<Bytes> {
    if p in fs then Some(fs[p]) else None
  }

  function Min(a: nat, b: nat): nat {
    if a <= b then a else b
  }

  predicate IsPrefix(a: Bytes, b: Bytes) {
    |a| <= |b| && b[..|a|] == a
  }

  /** POSIX `rename`: the source disappears and the destination takes its
      contents in one step (renaming a file onto itself changes nothing). */
  function Rename(fs: FileSystem, from: Path, to: Path): (r: FileSystem)
    requires from in fs
    ensures to in r && r[to] == fs[from]
    ensures from != to ==> from !in r
    ensures forall p | p != from && p != to :: Lookup(r, p) == Lookup(fs, p)
  {
    (fs - {from})[to := fs[from]]
  }

  /** The file system right after the temporary file was emptied with
      create + truncate: it exists and is empty, whatever it held before. */
  function Truncated(fs: FileSystem, file: Path): FileSystem {
    fs[TempPath(file) := []]
  }

  /** `commit_to_file`, the whole protocol in one call. */
  function CommitToFile(fs: FileSystem, file: Path, blob: Bytes, faults: CommitFaults): (o: Outcome<MonitorEvent>)
    // a failure anywhere leaves the target as it was
    ensures TempPath(file) != file && o.result.Failure? ==> Lookup(o.fs, file) == Lookup(fs, file)
    // success: the target holds exactly the blob and the temporary file is gone
    ensures o.result.Success? ==> o.result.value == PersistencyWritten && Lookup(o.fs, file) == Some(blob)
    ensures o.result.Success? && TempPath(file) != file ==> TempPath(file) !in o.fs
    // success exactly when no step failed
    ensures o.result.Success? <==> faults == NoFaults
    // an interrupted write leaves a prefix of the blob, never old bytes followed by new ones
    ensures !faults.openFails && faults.writeStopsAfter.Some? ==>
              TempPath(file) in o.fs && IsPrefix(o.fs[TempPath(file)], blob)
    // no other file is touched
    ensures forall p | p != file && p != TempPath(file) :: Lookup(o.fs, p) == Lookup(fs, p)
  {
    var tmp := TempPath(file);
    if faults.openFails then Outcome(fs, Failure(OpenFailed(tmp)))
    else
      var emptied := Truncated(fs, file);
      match faults.writeStopsAfter
      case Some(n) =>
        Outcome(emptied[tmp := blob[..Min(n, |blob|)]], Failure(WriteFailed(tmp)))
      case None =>
        var written := emptied[tmp := blob];
        if faults.renameFails then Outcome(written, Failure(RenameFailed(tmp, file)))
        else Outcome(Rename(written, tmp, file), Success(PersistencyWritten))
  }

  /** Every state the file system passes through during one commit, in order:
      the state before, the freshly truncated temporary file, each prefix of
      the blob as the write proceeds, and the state after the rename. A crash
      may leave the system in any of them. */
  function CommitTrace(fs: FileSystem, file: Path, blob: Bytes, faults: CommitFaults): (t: seq<FileSystem>)
    ensures |t| >= 1 && t[0] == fs
    ensures t[|t| - 1] == CommitToFile(fs, file, blob, faults).fs
  {
    var tmp := TempPath(file);
    if faults.openFails then [fs]
    else
      var emptied := Truncated(fs, file);
      var written := match faults.writeStopsAfter case Some(n) => Min(n, |blob|) case None => |blob|;
      var writes := seq(written + 1, k requires 0 <= k <= written => emptied[tmp := blob[..k]]);
      var finished := if faults.writeStopsAfter.None? && !faults.renameFails
                      then [Rename(emptied[tmp := blob], tmp, file)] else [];
      assert blob[..|blob|] == blob;
      [fs] + writes + finished
  }

  /** Crash consistency: at every intermediate state of a commit the target
      holds either its previous contents or the complete new blob. */
  lemma CommitIsOldOrNew(fs: FileSystem, file: Path, blob: Bytes, faults: CommitFaults)
    requires TempPath(file) != file
    ensures forall i | 0 <= i < |CommitTrace(fs, file, blob, faults)| ::
              var s := CommitTrace(fs, file, blob, faults)[i];
              Lookup(s, file) == Lookup(fs, file) || Lookup(s, file) == Some(blob)
  {
    var t := CommitTrace(fs, file, blob, faults);
    var tmp := TempPath(file);
    forall i | 0 <= i < |t|
      ensures Lookup(t[i], file) == Lookup(fs, file) || Lookup(t[i], file) == Some(blob)
    {
      if 0 < i && !faults.openFails {
        var emptied := Truncated(fs, file);
        var written := match faults.writeStopsAfter case Some(n) => Min(n, |blob|) case None => |blob|;
        if i <= written + 1 {
          assert t[i] == emptied[tmp := blob[..i - 1]];
        } else {
          assert t[i] == Rename(emptied[tmp := blob], tmp, file);
        }
      }
    }
  }

  /** The guarantee rests on the temporary path differing from the target: a
      target already named `*.new` is truncated in place, so a crash right
      after opening leaves an empty file that is neither version. */
  lemma TargetNamedNewIsTruncated()
    ensures var file := Path(["var", "lib", "bmcd"], "bmcd.new");
            var fs := map[file := [1]];
            var t := CommitTrace(fs, file, [2], NoFaults);
            TempPath(file) == file && Lookup(t[1], file) == Some([])
  {
    var file := Path(["var", "lib", "bmcd"], "bmcd.new");
    assert LastDot(file.name) == 4 by {
      assert file.name[4] == '.';
      assert LastDot(file.name[..7]) == 4 by {
        assert file.name[..7][..6][..5] == "bmcd.";
      }
    }
    assert Stem(file.name) == "bmcd";
  }

  /** Truncate, not append: the outcome of a commit does not depend on what a
      stale temporary file held before. */
  lemma CommitIgnoresStaleTemp(fs: FileSystem, file: Path, blob: Bytes, faults: CommitFaults, stale: Bytes)
    requires !faults.openFails
    ensures CommitToFile(fs[TempPath(file) := stale], file, blob, faults) == CommitToFile(fs, file, blob, faults)
  {
    var tmp := TempPath(file);
    var fs' := fs[tmp := stale];
    var emptied := Truncated(fs, file);
    assert Truncated(fs', file) == emptied by {
      assert fs'[tmp := []] == fs[tmp := []];
    }
    // both commits continue from the same emptied file system
    var o := match faults.writeStopsAfter
      case Some(n) => Outcome(emptied[tmp := blob[..Min(n, |blob|)]], Failure(WriteFailed(tmp)))
      case None =>
        if faults.renameFails then Outcome(emptied[tmp := blob], Failure(RenameFailed(tmp, file)))
        else Outcome(Rename(emptied[tmp := blob], tmp, file), Success(PersistencyWritten));
    assert CommitToFile(fs', file, blob, faults) == o;
    assert CommitToFile(fs, file, blob, faults) == o;
  }

  /** Flushing twice with no mutation in between leaves an identical file system. */
  lemma CommitIdempotent(fs: FileSystem, file: Path, blob: Bytes)
    requires TempPath(file) != file
    ensures var once := CommitToFile(fs, file, blob, NoFaults).fs;
            CommitToFile(once, file, blob, NoFaults).fs == once
  {
  }

  /** The faults `sync_all` may meet: those of the commit, then the reopen of
      the committed file, then the fsync. */
  datatype SyncFaults = SyncFaults(commit: CommitFaults, reopenFails: bool, fsyncFails: bool)

  /** `sync_all`'s effect: the file system after it, whether an fsync was issued
      on the committed file, and the result. */
  datatype SyncOutcome = SyncOutcome(fs: FileSystem, fsynced: bool, result: Result<(), IoError>)

  /** `sync_all`: commit, then open the committed file and fsync it. */
  function SyncAll(fs: FileSystem, file: Path, blob: Bytes, faults: SyncFaults): (o: SyncOutcome)
    // the fsync happens only after a successful commit
    ensures o.fsynced ==> faults.commit == NoFaults && Lookup(o.fs, file) == Some(blob)
    ensures o.result.Success? <==> o.fsynced && !faults.fsyncFails
    // the fsync is issued exactly when the commit and the reopen succeed, and
    // the whole call succeeds exactly when no step fails
    ensures o.fsynced <==> faults.commit == NoFaults && !faults.reopenFails
    ensures o.result.Success? <==> faults == SyncFaults(NoFaults, false, false)
    // a failed commit is reported as it is
    ensures faults.commit != NoFaults ==> o.result == Failure(CommitToFile(fs, file, blob, faults.commit).result.error)
    // syncing adds nothing to the contents beyond the commit
    ensures o.fs == CommitToFile(fs, file, blob, faults.commit).fs
  {
    var c := CommitToFile(fs, file, blob, faults.commit);
    if c.result.Failure? then SyncOutcome(c.fs, false, Failure(c.result.error))
    else if faults.reopenFails then SyncOutcome(c.fs, false, Failure(OpenFailed(file)))
    else if faults.fsyncFails then SyncOutcome(c.fs, true, Failure(SyncFailed(file)))
    else SyncOutcome(c.fs, true, Success(()))
  }
}

=== FILE: daemon.dfy ===
/**
 * An `ApplicationPersistency` handle at work: the owner mutates the store; the
 * background writer, when one was spawned, observes changes and commits when
 * its deadline fires; and `sync_all`, whose only caller is the flush that
 * `Drop` spawns, commits and forces the file to disk. The file system changes
 * only through commits, and each commit is taken as one step: commits never
 * interleave here.
 */
module Daemon {
  import opened Wrappers
  import opened Ints
  import opened Paths
  import opened Commit
  import opened Builder
  import Debounce

  datatype Action =
    | Mutate(blob: Bytes)                 // a `set`: the store's new serialized form
    | Observe(stamp: nat)                 // the writer's watcher sees a change
    | CloseChannel                        // the watch channel's sender is gone
    | DeadlineFires(faults: CommitFaults) // the armed write future runs `commit_to_file`
    | Flush(sync: SyncFaults)             // the flush spawned on `Drop` runs `sync_all`

  datatype State = State(p: Persistency, fs: FileSystem)

  /** Feed one event to the writer task, if there is one. */
  function ToWriter(s: State, e: Debounce.Event): (r: State)
    ensures r.fs == s.fs && r.p.file == s.p.file && r.p.blob == s.p.blob
    ensures s.p.writer.None? ==> r == s
  {
    match s.p.writer
    case None => s
    case Some(task) =>
      var next := Debounce.Step(task.cfg, task.state, e).next;
      State(s.p.(writer := Some(task.(state := next))), s.fs)
  }

  function Act(s: State, a: Action): (r: State)
    ensures r.p.file == s.p.file
    ensures r.p.writer.None? <==> s.p.writer.None?
    // the store changes only through a mutation, the file system only through a commit
    ensures !a.Mutate? ==> r.p.blob == s.p.blob
    // a `set` replaces the store's serialized form and touches nothing else
    ensures a.Mutate? ==> r == State(s.p.(blob := a.blob), s.fs)
    // a change notification re-arms the writer, a closed channel stops it
    ensures (a.Observe? || a.CloseChannel?) && s.p.writer.Some? ==>
              var task := s.p.writer.value;
              var e := if a.Observe? then Debounce.Changed(a.stamp) else Debounce.Closed;
              r.p.writer == Some(task.(state := Debounce.Step(task.cfg, task.state, e).next))
    ensures a.Mutate? || a.Observe? || a.CloseChannel? ==> r.fs == s.fs
    // with no writer, only an explicit flush reaches the file system
    ensures s.p.writer.None? && !a.Flush? ==> r.fs == s.fs
    // a deadline fires only while one is armed; otherwise nothing happens
    ensures a.DeadlineFires? && !(s.p.writer.Some? && s.p.writer.value.state.Pending?) ==> r == s
    // an armed deadline commits the current serialized form, and the writer
    // takes the loop's next state for that commit's success or failure
    ensures a.DeadlineFires? && s.p.writer.Some? && s.p.writer.value.state.Pending? ==>
              var c := CommitToFile(s.fs, s.p.file, s.p.blob, a.faults);
              var task := s.p.writer.value;
              && r.fs == c.fs
              && r.p.writer == Some(task.(state := Debounce.Step(task.cfg, task.state, Debounce.Elapsed(c.result.Success?)).next))
    // a flush commits the current serialized form and forces it to disk
    ensures a.Flush? ==> r.fs == SyncAll(s.fs, s.p.file, s.p.blob, a.sync).fs && r.p == s.p
  {
    match a
    case Mutate(b) => State(s.p.(blob := b), s.fs)
    case Observe(stamp) => ToWriter(s, Debounce.Changed(stamp))
    case CloseChannel => ToWriter(s, Debounce.Closed)
    case DeadlineFires(faults) =>
      if s.p.writer.Some? && s.p.writer.value.state.Pending? then
        var c := CommitToFile(s.fs, s.p.file, s.p.blob, faults);
        ToWriter(State(s.p, c.fs), Debounce.Elapsed(c.result.Success?))
      else s
    case Flush(faults) => State(s.p, SyncAll(s.fs, s.p.file, s.p.blob, faults).fs)
  }

  /** A deadline that fires without a fault on an armed writer leaves the
      target holding exactly the store's current serialized form, and the
      writer back at the never-firing placeholder. */
  lemma FiredDeadlineCommitsBlob(s: State)
    requires s.p.writer.Some? && s.p.writer.value.state.Pending?
    ensures var r := Act(s, DeadlineFires(NoFaults));
            && Lookup(r.fs, s.p.file) == Some(s.p.blob)
            && r.p.blob == s.p.blob
            && r.p.writer == Some(s.p.writer.value.(state := Debounce.Idle))
  {
  }

  /** The write-back path end to end: a `set` of `b`, its change notification
      seen by a running writer whose deadline does not overflow, and that
      deadline firing without a fault leave the backing file holding exactly
      `b`, the store holding `b` and the writer back on the placeholder. */
  lemma SetNotifyFireCommits(s: State, b: Bytes, stamp: nat)
    requires s.p.writer.Some? && !s.p.writer.value.state.Stopped?
    requires stamp + s.p.writer.value.cfg.timeout <= s.p.writer.value.cfg.maxInstant
    ensures var r := Act(Act(Act(s, Mutate(b)), Observe(stamp)), DeadlineFires(NoFaults));
            && Lookup(r.fs, s.p.file) == Some(b)
            && r.p.blob == b
            && r.p.writer == Some(s.p.writer.value.(state := Debounce.Idle))
  {
    var s1 := Act(s, Mutate(b));
    var s2 := Act(s1, Observe(stamp));
    assert s2.p.writer.value.state.Pending?;
    FiredDeadlineCommitsBlob(s2);
  }

  function Perform(s: State, actions: seq<Action>): State
    decreases |actions|
  {
    if |actions| == 0 then s else Perform(Act(s, actions[0]), actions[1..])
  }

  /** The actions that do not come from the writer: mutations and flushes. */
  function Explicit(actions: seq<Action>): (r: seq<Action>)
    ensures forall a | a in r :: a.Mutate? || a.Flush?
    decreases |actions|
  {
    if |actions| == 0 then []
    else (if actions[0].Mutate? || actions[0].Flush? then [actions[0]] else []) + Explicit(actions[1..])
  }

  /** Without a write timeout no background writer exists, so the file system
      evolves exactly as if only the mutations and the drop flushes had happened. */
  lemma {:induction false} NoWriterOnlyExplicitFlushes(s: State, actions: seq<Action>)
    requires s.p.writer.None?
    ensures Perform(s, actions).fs == Perform(s, Explicit(actions)).fs
    decreases |actions|
  {
    if |actions| > 0 {
      var a := actions[0];
      NoWriterOnlyExplicitFlushes(Act(s, a), actions[1..]);
      if a.Mutate? || a.Flush? {
        assert Explicit(actions) == [a] + Explicit(actions[1..]);
        assert Explicit(actions)[1..] == Explicit(actions[1..]);
      } else {
        assert Act(s, a) == s;
        assert Explicit(actions) == Explicit(actions[1..]);
      }
    }
  }

  /** Every serialized form the store had along the way, the initial one first. */
  function Images(s: State, actions: seq<Action>): seq<Bytes>
    decreases |actions|
  {
    [s.p.blob] + if |actions| == 0 then [] else Images(Act(s, actions[0]), actions[1..])
  }

  /** Whatever happens, crashes aside, the backing file holds its original
      contents or one complete serialized form the store had: never a mix,
      never a truncated file. */
  lemma {:induction false} FileHoldsAnImage(s: State, actions: seq<Action>)
    requires TempPath(s.p.file) != s.p.file
    ensures var f := Lookup(Perform(s, actions).fs, s.p.file);
            f == Lookup(s.fs, s.p.file) || (f.Some? && f.value in Images(s, actions))
    decreases |actions|
  {
    if |actions| > 0 {
      var s' := Act(s, actions[0]);
      FileHoldsAnImage(s', actions[1..]);
      var f' := Lookup(s'.fs, s.p.file);
      // one step leaves the file alone or commits the current image
      assert f' == Lookup(s.fs, s.p.file) || f' == Some(s.p.blob);
    }
  }

  /** A run that performs no commit leaves the file system as it was: this is
      why a second instance opened during a burst of changes still reads the
      previously committed contents. */
  lemma {:induction false} NoCommitNoChange(s: State, actions: seq<Action>)
    requires forall a | a in actions :: !a.Flush? && !a.DeadlineFires?
    ensures Perform(s, actions).fs == s.fs
    decreases |actions|
  {
    if |actions| > 0 {
      assert actions[0] in actions;
      assert forall a | a in actions[1..] :: a in actions;
      NoCommitNoChange(Act(s, actions[0]), actions[1..]);
    }
  }

  /** After a successful `sync_all`, reopening the same path hands the store
      loader exactly the flushed serialized form (the restart of the
      write-on-drop scenario, with the drop's flush made explicit). */
  lemma ReopenReadsFlushed(s: State, faults: SyncFaults, keys: seq<(Key, Bytes)>, env: BuildEnv, load: Loader)
    requires SyncAll(s.fs, s.p.file, s.p.blob, faults).result.Success?
    requires !env.openFails
    ensures var fs := Act(s, Flush(faults)).fs;
            var r := New(keys, s.p.file, None, fs, env, load);
            r.0 == fs && (r.1.Success? <==> load(keys, s.p.blob).Success?)
            && (r.1.Success? ==> r.1.value.blob == load(keys, s.p.blob).value && r.1.value.writer.None?)
  {
  }
}

=== FILE: debounce.dfy ===
/**
 * The `filesystem_writer` loop as a state machine. Each turn of the loop
 * waits for whichever comes first: a change notification from the store's
 * watch channel, or the currently armed write future. That future is either
 * the never-firing placeholder (`Idle`) or "sleep until the deadline, then
 * commit" (`Pending`). A change re-arms the deadline at the observed
 * timestamp plus the write timeout; a fired deadline commits and goes back
 * to the placeholder. A closed channel, an instant overflow in `checked_add`
 * or a failed commit ends the loop (`Stopped`).
 *
 * Time is a natural number (nanoseconds); the commit's own file-system effect
 * is the Commit module's business, so here it is only its success or failure.
 */
module Debounce {
  import opened Wrappers

  /** The write timeout and the largest representable instant. */
  datatype Config = Config(timeout: nat, maxInstant: nat)

  datatype StopReason = ChannelClosed | DeadlineOverflow | CommitFailed

  datatype Writer = Idle | Pending(deadline: nat) | Stopped(reason: StopReason)

  /** What a turn of the loop can observe: a change carrying the latest
      published timestamp, the closing of the channel, or the armed write
      future completing with the commit's success or failure. */
  datatype Event = Changed(stamp: nat) | Closed | Elapsed(commitOk: bool)

  /** The next state, and whether a commit was performed on the way. */
  datatype Transition = Transition(next: Writer, committed: bool)

  /** `Instant::checked_add(write_timeout)`. */
  function CheckedAdd(cfg: Config, stamp: nat): (r: Option<nat>)
    ensures r.Some? <==> stamp + cfg.timeout <= cfg.maxInstant
    ensures r.Some? ==> r.value == stamp + cfg.timeout
  {
    if stamp + cfg.timeout <= cfg.maxInstant then Some(stamp + cfg.timeout) else None
  }

  /** One turn of the loop. */
  function Step(cfg: Config, w: Writer, e: Event): (t: Transition)
    // the loop has exited: nothing happens any more
    ensures w.Stopped? ==> t == Transition(w, false)
    // a commit is performed exactly when an armed deadline fires
    ensures t.committed <==> w.Pending? && e.Elapsed?
    // the only deadline ever armed is the latest change's timestamp plus the timeout,
    // whatever deadline was armed before
    ensures t.next.Pending? <==> !w.Stopped? && e.Changed? && e.stamp + cfg.timeout <= cfg.maxInstant
    ensures t.next.Pending? ==> t.next.deadline == e.stamp + cfg.timeout
    // back to the placeholder after a successful commit (or when the placeholder is polled)
    ensures t.next.Idle? <==> (w.Idle? && e.Elapsed?) || (w.Pending? && e == Elapsed(true))
    // the three ways the loop ends
    ensures !w.Stopped? ==> (t.next == Stopped(ChannelClosed) <==> e.Closed?)
    ensures !w.Stopped? ==> (t.next == Stopped(DeadlineOverflow) <==> e.Changed? && e.stamp + cfg.timeout > cfg.maxInstant)
    ensures !w.Stopped? ==> (t.next == Stopped(CommitFailed) <==> w.Pending? && e == Elapsed(false))
  {
    match w
    case Stopped(_) => Transition(w, false)
    case _ =>
      match e
      case Closed => Transition(Stopped(ChannelClosed), false)
      case Changed(stamp) =>
        (match CheckedAdd(cfg, stamp)
         case None => Transition(Stopped(DeadlineOverflow), false)
         case Some(deadline) => Transition(Pending(deadline), false))
      case Elapsed(ok) =>
        if w.Idle? then Transition(Idle, false)
        else if ok then Transition(Idle, true)
        else Transition(Stopped(CommitFailed), true)
  }

  /** Re-arming does not depend on what was armed before: two running writers
      that see the same change end up in the same state. */
  lemma RearmForgetsOldDeadline(cfg: Config, w1: Writer, w2: Writer, stamp: nat)
    requires !w1.Stopped? && !w2.Stopped?
    ensures Step(cfg, w1, Changed(stamp)) == Step(cfg, w2, Changed(stamp))
  {
  }

  /** An event together with the instant at which the loop observes it. */
  datatype Timed = Timed(at: nat, event: Event)

  /** The state after a run and the instants at which commits were performed. */
  datatype RunResult = RunResult(final: Writer, commits: seq<nat>)

  /** The loop run over a sequence of observed events, from state `w`. */
  function Run(cfg: Config, w: Writer, trace: seq<Timed>): (r: RunResult)
    // commits happen only when a write future completes, at most once per turn
    ensures |r.commits| <= |trace|
    ensures forall c | c in r.commits :: exists i | 0 <= i < |trace| :: trace[i].at == c && trace[i].event.Elapsed?
    // a trace in which no write future completes commits nothing
    ensures (forall i | 0 <= i < |trace| :: !trace[i].event.Elapsed?) ==> r.commits == []
    decreases |trace|
  {
    if |trace| == 0 then RunResult(w, [])
    else
      var prev := Run(cfg, w, trace[..|trace| - 1]);
      var last := trace[|trace| - 1];
      var t := Step(cfg, prev.final, last.event);
      RunResult(t.next, prev.commits + if t.committed then [last.at] else [])
  }

  /** The writer's state just before it handles `trace[i]`. */
  function StateBefore(cfg: Config, w: Writer, trace: seq<Timed>, i: nat): Writer
    requires i <= |trace|
  {
    Run(cfg, w, trace[..i]).final
  }

  /** Whether handling `trace[i]` performs a commit. */
  predicate CommitsAt(cfg: Config, w: Writer, trace: seq<Timed>, i: nat)
    requires i < |trace|
  {
    Step(cfg, StateBefore(cfg, w, trace, i), trace[i].event).committed
  }

  /** Handling `trace[i]` is one turn of the loop from the state before it:
      the run up to and including `trace[i]` ends in that turn's next state
      and appends `trace[i].at` to the commits exactly when the turn commits. */
  lemma RunStep(cfg: Config, w: Writer, trace: seq<Timed>, i: nat)
    requires i < |trace|
    ensures var t := Step(cfg, StateBefore(cfg, w, trace, i), trace[i].event);
            Run(cfg, w, trace[..i + 1])
            == RunResult(t.next, Run(cfg, w, trace[..i]).commits + if t.committed then [trace[i].at] else [])
  {
    assert trace[..i + 1][..i] == trace[..i];
  }

  /** Running a longer trace only appends commits: the commits of a prefix
      are a prefix of the commits of the whole trace. */
  lemma {:induction false} RunCommitsExtend(cfg: Config, w: Writer, trace: seq<Timed>, n: nat)
    requires n <= |trace|
    ensures var pre := Run(cfg, w, trace[..n]).commits;
            var all := Run(cfg, w, trace).commits;
            |pre| <= |all| && all[..|pre|] == pre
    decreases |trace| - n
  {
    if n < |trace| {
      var m := |trace| - 1;
      assert trace[..m][..n] == trace[..n];
      RunCommitsExtend(cfg, w, trace[..m], n);
    } else {
      assert trace[..n] == trace;
    }
  }

  /** Every committing step is recorded: the run's commits include the
      instant of each turn whose write future completed on an armed deadline. */
  lemma CommitRecorded(cfg: Config, w: Writer, trace: seq<Timed>, i: nat)
    requires i < |trace| && CommitsAt(cfg, w, trace, i)
    ensures trace[i].at in Run(cfg, w, trace).commits
  {
    RunStep(cfg, w, trace, i);
    var r := Run(cfg, w, trace[..i + 1]);
    RunCommitsExtend(cfg, w, trace, i + 1);
    assert r.commits[|r.commits| - 1] == trace[i].at;
  }

  /** Every recorded commit comes from a committing step at that instant. */
  lemma {:induction false} CommitHasStep(cfg: Config, w: Writer, trace: seq<Timed>, c: nat)
    requires c in Run(cfg, w, trace).commits
    ensures exists i | 0 <= i < |trace| :: CommitsAt(cfg, w, trace, i) && trace[i].at == c
    decreases |trace|
  {
    var n := |trace| - 1;
    var pre := trace[..n];
    if c in Run(cfg, w, pre).commits {
      CommitHasStep(cfg, w, pre, c);
      var i :| 0 <= i < n && CommitsAt(cfg, w, pre, i) && pre[i].at == c;
      assert pre[..i] == trace[..i];
      assert CommitsAt(cfg, w, trace, i);
    } else {
      assert CommitsAt(cfg, w, trace, n) && trace[n].at == c;
    }
  }

  /** The recorded commits are exactly the instants of the committing steps. */
  lemma RunCommitsExactly(cfg: Config, w: Writer, trace: seq<Timed>, c: nat)
    ensures c in Run(cfg, w, trace).commits <==>
              exists i | 0 <= i < |trace| :: CommitsAt(cfg, w, trace, i) && trace[i].at == c
  {
    if c in Run(cfg, w, trace).commits {
      CommitHasStep(cfg, w, trace, c);
    }
    if exists i | 0 <= i < |trace| :: CommitsAt(cfg, w, trace, i) && trace[i].at == c {
      var i :| 0 <= i < |trace| && CommitsAt(cfg, w, trace, i) && trace[i].at == c;
      CommitRecorded(cfg, w, trace, i);
    }
  }

  /** The runs tokio can produce: instants never go backwards, a change is
      observed no earlier than it was published, and an armed write future
      completes only once its deadline has passed (the placeholder never
      completes; nothing completes after the loop exits). */
  predicate Admissible(cfg: Config, w: Writer, trace: seq<Timed>) {
    && (forall i, j | 0 <= i <= j < |trace| :: trace[i].at <= trace[j].at)
    && (forall i | 0 <= i < |trace| && trace[i].event.Changed? :: trace[i].event.stamp <= trace[i].at)
    && (forall i | 0 <= i < |trace| && trace[i].event.Elapsed? ::
          StateBefore(cfg, w, trace, i).Pending? && StateBefore(cfg, w, trace, i).deadline <= trace[i].at)
  }

  /** Every change is observed at the instant it is published. */
  predicate Prompt(trace: seq<Timed>) {
    forall i | 0 <= i < |trace| && trace[i].event.Changed? :: trace[i].event.stamp == trace[i].at
  }

  /** A run commits nothing when none of its steps commits. */
  lemma {:induction false} NoCommitStepNoCommit(cfg: Config, w: Writer, trace: seq<Timed>)
    requires forall i | 0 <= i < |trace| :: !CommitsAt(cfg, w, trace, i)
    ensures Run(cfg, w, trace).commits == []
    decreases |trace|
  {
    if |trace| > 0 {
      var n := |trace| - 1;
      var pre := trace[..n];
      forall i | 0 <= i < n
        ensures !CommitsAt(cfg, w, pre, i)
      {
        assert pre[..i] == trace[..i];
        assert !CommitsAt(cfg, w, trace, i);
      }
      NoCommitStepNoCommit(cfg, w, pre);
      assert !CommitsAt(cfg, w, trace, n);
    }
  }

  /** The armed deadline always comes from the change observed just before:
      a pending state is only ever entered through a change (a fired deadline
      leads back to the placeholder or ends the loop), so there is never more
      than the one deadline of the latest change. */
  lemma ArmedByPreviousChange(cfg: Config, w: Writer, trace: seq<Timed>, i: nat)
    requires i <= |trace| && !w.Pending?
    requires StateBefore(cfg, w, trace, i).Pending?
    ensures i > 0 && trace[i - 1].event.Changed?
    ensures StateBefore(cfg, w, trace, i).deadline == trace[i - 1].event.stamp + cfg.timeout
  {
  }

  /** Debounce: from the placeholder, with every change observed promptly,
      a commit at instant `c` is preceded by a change at least `timeout`
      earlier, and no change at all was published in the `timeout` window
      before `c`. */
  lemma QuietBeforeCommit(cfg: Config, trace: seq<Timed>, i: nat)
    requires Admissible(cfg, Idle, trace) && Prompt(trace)
    requires i < |trace| && CommitsAt(cfg, Idle, trace, i)
    ensures exists j | 0 <= j < i :: trace[j].event.Changed? && trace[j].event.stamp + cfg.timeout <= trace[i].at
    ensures forall k | 0 <= k < |trace| && trace[k].event.Changed? ::
              !(trace[i].at - cfg.timeout < trace[k].event.stamp < trace[i].at)
  {
  }

  /** After a commit the writer performs no further commit until a new change
      has been observed: between any two commits there is a change. */
  lemma ChangeBetweenCommits(cfg: Config, trace: seq<Timed>, i: nat, i': nat)
    requires i < i' < |trace|
    requires CommitsAt(cfg, Idle, trace, i) && CommitsAt(cfg, Idle, trace, i')
    ensures exists k | i < k < i' :: trace[k].event.Changed?
  {
  }

  function ChangeCount(trace: seq<Timed>): nat {
    if |trace| == 0 then 0
    else ChangeCount(trace[..|trace| - 1]) + if trace[|trace| - 1].event.Changed? then 1 else 0
  }

  /** Coalescing: from the placeholder, a run performs at most as many commits
      as it observed changes, one fewer while a deadline is still armed. */
  lemma {:induction false} CommitsAtMostChanges(cfg: Config, trace: seq<Timed>)
    ensures var r := Run(cfg, Idle, trace);
            |r.commits| + (if r.final.Pending? then 1 else 0) <= ChangeCount(trace)
    decreases |trace|
  {
    if |trace| > 0 {
      CommitsAtMostChanges(cfg, trace[..|trace| - 1]);
    }
  }

  /** A loop that has exited stays exited and commits nothing. */
  lemma {:induction false} StoppedIsFinal(cfg: Config, reason: StopReason, trace: seq<Timed>)
    ensures Run(cfg, Stopped(reason), trace) == RunResult(Stopped(reason), [])
    decreases |trace|
  {
    if |trace| > 0 {
      StoppedIsFinal(cfg, reason, trace[..|trace| - 1]);
    }
  }

  /** One millisecond in nanoseconds. */
  const Ms: nat := 1_000_000

  /** The instants of the six sets of the write-back scenario. */
  const BurstStamps: seq<nat> := [100 * Ms, 200 * Ms, 300 * Ms, 400 * Ms, 500 * Ms, 600 * Ms]

  /** Every 200 ms window ending between 200 ms and 800 ms contains one of the
      burst's instants. */
  lemma BurstCoversWindow(c: nat) returns (s: nat)
    requires 200 * Ms <= c < 800 * Ms
    ensures s in BurstStamps && c - 200 * Ms < s < c
  {
    s := if c < 300 * Ms then 100 * Ms else if c < 400 * Ms then 200 * Ms else if c < 500 * Ms then 300 * Ms
         else if c < 600 * Ms then 400 * Ms else if c < 700 * Ms then 500 * Ms else 600 * Ms;
    assert s in BurstStamps;
  }

  /** The write-back scenario: a 200 ms timeout and changes published at
      100, 200, ..., 600 ms; whatever else happens before 800 ms, nothing is
      committed, so a reader opening the file then still sees what was there. */
  lemma NoCommitDuringBurst(maxInstant: nat, trace: seq<Timed>)
    requires Admissible(Config(200 * Ms, maxInstant), Idle, trace) && Prompt(trace)
    requires forall s | s in BurstStamps :: exists k | 0 <= k < |trace| :: trace[k].event == Changed(s)
    requires forall k | 0 <= k < |trace| :: trace[k].at < 800 * Ms
    ensures Run(Config(200 * Ms, maxInstant), Idle, trace).commits == []
  {
    var cfg := Config(200 * Ms, maxInstant);
    forall i | 0 <= i < |trace|
      ensures !CommitsAt(cfg, Idle, trace, i)
    {
      if CommitsAt(cfg, Idle, trace, i) {
        QuietBeforeCommit(cfg, trace, i);
        var s := BurstCoversWindow(trace[i].at);
        assert false;
      }
    }
    NoCommitStepNoCommit(cfg, Idle, trace);
  }
}

=== FILE: ints.dfy ===
/** Fixed-width unsigned integers of the source, as bounded subsets of `int`. */
module Ints {

  const U32_LIMIT: nat := 0x1_0000_0000

  type u8 = x: int | 0 <= x < 0x100
  type u16 = x: int | 0 <= x < 0x1_0000
  type u32 = x: int | 0 <= x < 0x1_0000_0000

  /** A byte string, as read from or written to a file. */
  type Bytes = seq<u8>

  /** Rust's wrapping `u32` addition (the release-build meaning of `+=` on `u32`). */
  function WrappingAdd32(a: u32, b: u32): (r: u32)
    ensures a + b < U32_LIMIT ==> r == a + b
    ensures a + b >= U32_LIMIT ==> r == a + b - U32_LIMIT
  {
    (a + b) % U32_LIMIT
  }
}

=== FILE: paths.dfy ===
/**
 * The part of Rust's `PathBuf` the commit protocol relies on: a path is a
 * directory plus a final component, and `set_extension` rewrites the final
 * component only.
 */
module Paths {
  import opened Seqs

  /** `dir` holds the parent components, `name` the final component as Rust's
      `components()` yields it (may be empty for a path with no file name, as
      `/`). Rust drops a `.` component except at the start, so a final `.`
      is the path `.` itself. */
  datatype Path = Path(dir: seq<string>, name: string)

  /** `file_name()` is `None` for an empty final component, for `.` and for `..`. */
  predicate HasFileName(p: Path) {
    p.name != "" && p.name != "." && p.name != ".."
  }

  /** Index of the last `.` in `s`, or -1 when there is none. */
  function LastDot(s: string): (r: int)
    ensures -1 <= r < |s|
    ensures r >= 0 ==> s[r] == '.'
    ensures forall i | r < i < |s| :: s[i] != '.'
  {
    if |s| == 0 then -1
    else if s[|s| - 1] == '.' then |s| - 1
    else LastDot(s[..|s| - 1])
  }

  /** Whether the name splits into a stem and an extension: a dot that is not
      the first character (a leading dot marks a hidden file, not an extension). */
  predicate SplitsAtDot(name: string) {
    LastDot(name) > 0
  }

  /** `file_stem()` of a final component. */
  function Stem(name: string): (r: string)
    ensures SplitsAtDot(name) ==> r + "." + Extension(name) == name
    ensures !SplitsAtDot(name) ==> r == name
  {
    if SplitsAtDot(name) then name[..LastDot(name)] else name
  }

  /** `extension()` of a final component. */
  function Extension(name: string): (r: string)
    ensures forall i | 0 <= i < |r| :: r[i] != '.'
  {
    if SplitsAtDot(name) then name[LastDot(name) + 1..] else ""
  }

  /** `PathBuf::set_extension(ext)`: no change when there is no file name,
      otherwise the stem followed by `.ext` (or the bare stem if `ext` is empty). */
  function SetExtension(p: Path, ext: string): (r: Path)
    ensures r.dir == p.dir
    ensures !HasFileName(p) ==> r == p
    // the stem is kept and the extension removed, or replaced by `ext`
    ensures HasFileName(p) && ext == "" ==> r.name == Stem(p.name)
    ensures HasFileName(p) && ext != "" && NoDots(ext) ==>
              && SplitsAtDot(r.name) && Extension(r.name) == ext && Stem(r.name) == Stem(p.name)
  {
    if !HasFileName(p) then p
    else if ext == "" then Path(p.dir, Stem(p.name))
    else
      var name := Stem(p.name) + "." + ext;
      if NoDots(ext) then
        LastDotOfAppended(Stem(p.name), ext);
        assert name[..|Stem(p.name)|] == Stem(p.name);
        assert name[|Stem(p.name)| + 1..] == ext;
        Path(p.dir, name)
      else Path(p.dir, name)
  }

  predicate NoDots(s: string) {
    forall i | 0 <= i < |s| :: s[i] != '.'
  }

  /** Appending `.x`, with `x` free of dots, puts the last dot right after `s`. */
  lemma {:induction false} LastDotOfAppended(s: string, x: string)
    requires NoDots(x)
    ensures LastDot(s + "." + x) == |s|
    decreases |x|
  {
    var t := s + "." + x;
    if |x| == 0 {
      assert t[|t| - 1] == '.';
    } else {
      assert t[|t| - 1] == x[|x| - 1];
      assert t[..|t| - 1] == s + "." + x[..|x| - 1];
      LastDotOfAppended(s, x[..|x| - 1]);
    }
  }

  /** The sibling path `commit_to_file` writes before renaming: `<stem>.new`
      next to the target, or the target itself when it has no file name. */
  function TempPath(file: Path): (r: Path)
    ensures r.dir == file.dir
    ensures !HasFileName(file) ==> r == file
  {
    SetExtension(file, "new")
  }

  /** The temporary path coincides with the target exactly when the target has
      no file name or already carries the extension `new`. */
  lemma TempPathIsTargetIff(file: Path)
    ensures TempPath(file) == file <==> !HasFileName(file) || (SplitsAtDot(file.name) && Extension(file.name) == "new")
  {
  }

  /** Whenever the target has a file name, the temporary file is `<stem>.new`:
      it has the extension `new` and the target's stem. */
  lemma TempPathShape(file: Path)
    requires HasFileName(file)
    ensures TempPath(file).name == Stem(file.name) + ".new"
    ensures SplitsAtDot(TempPath(file).name) && Extension(TempPath(file).name) == "new"
    ensures Stem(TempPath(file).name) == Stem(file.name)
  {
    assert NoDots("new") by {
      assert "new"[0] == 'n' && "new"[1] == 'e' && "new"[2] == 'w';
    }
    ConcatAssoc(Stem(file.name), ".", "new");
    assert "." + "new" == ".new";
  }
}

=== FILE: rockusb.dfy ===
/**
 * The boot-loader table walk of the Rockchip USB flashing path, and the
 * boot-mode decoding of a device descriptor.
 *
 * A Rockchip boot image starts with a fixed-size header; for each of the two
 * entry kinds (0x471 and 0x472) the header gives a count, the offset of the
 * first entry record and the stride between records. Every record, a
 * fixed-size window of the image, names a data slice of the image and a delay.
 * Decoding a header or a record belongs to an external crate and is a
 * parameter here (`Decoders`).
 */
module RockUsb {
  import opened Wrappers
  import opened Ints

  /** `size_of::<RkBootHeaderBytes>()`: the header occupies the first 102 bytes. */
  const HeaderBytes: nat := 102
  /** `size_of::<RkBootEntryBytes>()`: one entry record is 57 bytes. */
  const EntryBytes: nat := 57

  const Entry471: u16 := 0x471
  const Entry472: u16 := 0x472

  /** `RkBootHeaderEntry`: where one kind's records are. */
  datatype HeaderEntry = HeaderEntry(count: u8, offset: u32, size: u8)

  /** The fields of `RkBootHeader` the walk reads. */
  datatype BootHeader = BootHeader(entry471: HeaderEntry, entry472: HeaderEntry)

  /** The fields of `RkBootEntry` the walk reads (the UTF-16 name is only logged). */
  datatype BootEntry = BootEntry(size: u8, dataOffset: u32, dataSize: u32, dataDelay: u32)

  /** One yielded `(entry_type, data_delay, data)` triple. */
  datatype Item = Item(entryType: u16, delay: u32, data: Bytes)

  /** `HeaderCorrupt` is the `context("Boot header loader corrupt")` error;
      `OutOfBounds` stands for the panic of an out-of-range slice index. */
  datatype ParseError = HeaderCorrupt | OutOfBounds

  /** `RkBootHeader::from_bytes` (fallible) and `RkBootEntry::from_bytes` (infallible). */
  datatype Decoders = Decoders(header: Bytes -> Option<BootHeader>, entry: Bytes -> BootEntry)

  /** `parse_boot_entry`: decode the record window starting at `start`. */
  function ParseBootEntry(blob: Bytes, start: u32, dec: Decoders): (r: Result<BootEntry, ParseError>)
    ensures r.Success? <==> start + EntryBytes <= |blob|
    ensures r.Failure? ==> r.error == OutOfBounds
    ensures r.Success? ==> r.value == dec.entry(blob[start..start + EntryBytes])
  {
    if start + EntryBytes <= |blob| then Success(dec.entry(blob[start..start + EntryBytes]))
    else Failure(OutOfBounds)
  }

  /** A record is read from its own 57-byte window alone: two images that
      agree on that window decode the same record there. */
  lemma ParseBootEntryReadsWindow(blob1: Bytes, blob2: Bytes, start: u32, dec: Decoders)
    requires start + EntryBytes <= |blob1| && start + EntryBytes <= |blob2|
    requires blob1[start..start + EntryBytes] == blob2[start..start + EntryBytes]
    ensures ParseBootEntry(blob1, start, dec) == ParseBootEntry(blob2, start, dec)
  {
  }

  /** Whether a record's data slice lies inside the image. */
  predicate ItemInBounds(blob: Bytes, e: BootEntry) {
    e.dataOffset + e.dataSize <= |blob|
  }

  /** The triple yielded for a record of non-zero size, once its data slice is in bounds. */
  function ItemOf(entryType: u16, e: BootEntry, blob: Bytes): Item
    requires ItemInBounds(blob, e)
  {
    Item(entryType, e.dataDelay, blob[e.dataOffset..e.dataOffset + e.dataSize])
  }

  /** The loop of `parse_boot_header_entry`, `remaining` iterations left, the
      range starting at `start`. A record of size zero is skipped without
      moving the range, exactly as the `continue` in the original loop does. */
  function Walk(blob: Bytes, entryType: u16, stride: u8, start: u32, remaining: nat, dec: Decoders)
    : (r: Result<seq<Item>, ParseError>)
    ensures r.Success? ==> |r.value| <= remaining
    ensures r.Success? ==> forall i | 0 <= i < |r.value| :: r.value[i].entryType == entryType
    ensures r.Failure? ==> r.error == OutOfBounds
    decreases remaining
  {
    if remaining == 0 then Success([])
    else
      match ParseBootEntry(blob, start, dec)
      case Failure(err) => Failure(err)
      case Success(e) =>
        if e.size == 0 then Walk(blob, entryType, stride, start, remaining - 1, dec)
        else if e.dataOffset + e.dataSize > |blob| then Failure(OutOfBounds)
        else
          match Walk(blob, entryType, stride, WrappingAdd32(start, stride), remaining - 1, dec)
          case Failure(err) => Failure(err)
          case Success(rest) => Success([ItemOf(entryType, e, blob)] + rest)
  }

  /** `xs` followed by the items of `r`, or `r`'s error. */
  function Prepend(xs: seq<Item>, r: Result<seq<Item>, ParseError>): Result<seq<Item>, ParseError> {
    match r
    case Success(ys) => Success(xs + ys)
    case Failure(e) => Failure(e)
  }

  /** `parse_boot_header_entry`, as the original loop over the records. */
  method ParseBootHeaderEntry(entryType: u16, blob: Bytes, header: HeaderEntry, dec: Decoders)
    returns (r: Result<seq<Item>, ParseError>)
    ensures r == Walk(blob, entryType, header.size, header.offset, header.count, dec)
  {
    var results: seq<Item> := [];
    var start: u32 := header.offset;
    var k: nat := 0;
    ghost var all := Walk(blob, entryType, header.size, header.offset, header.count, dec);
    assert all.Success? ==> [] + all.value == all.value;
    while k < header.count
      invariant k <= header.count
      invariant Walk(blob, entryType, header.size, header.offset, header.count, dec)
                == Prepend(results, Walk(blob, entryType, header.size, start, header.count - k, dec))
    {
      var entry := ParseBootEntry(blob, start, dec);
      if entry.Failure? {
        return Failure(entry.error);
      }
      var e := entry.value;
      if e.size == 0 {
        k := k + 1;
        continue;
      }
      var first: nat := e.dataOffset;
      var end: nat := first + e.dataSize;
      if end > |blob| {
        return Failure(OutOfBounds);
      }
      ghost var rest := Walk(blob, entryType, header.size, WrappingAdd32(start, header.size), header.count - k - 1, dec);
      assert Prepend(results, Prepend([ItemOf(entryType, e, blob)], rest))
             == Prepend(results + [Item(entryType, e.dataDelay, blob[first..end])], rest) by {
        if rest.Success? {
          assert results + ([ItemOf(entryType, e, blob)] + rest.value)
                 == (results + [ItemOf(entryType, e, blob)]) + rest.value;
        }
      }
      results := results + [Item(entryType, e.dataDelay, blob[first..end])];
      start := WrappingAdd32(start, header.size);
      k := k + 1;
    }
    assert results + [] == results;
    return Success(results);
  }

  /** The position of the `k`-th record read: the range start after `k`
      wrapping advances by `size`. */
  function Position(start: u32, stride: u8, k: nat): u32
    decreases k
  {
    if k == 0 then start else Position(WrappingAdd32(start, stride), stride, k - 1)
  }

  lemma PositionStep(start: u32, stride: u8, k: nat)
    ensures Position(WrappingAdd32(start, stride), stride, k) == Position(start, stride, k + 1)
  {
  }

  /** Reducing modulo 2^32 before adding changes nothing after a final reduction. */
  lemma ModAdd(a: nat, b: nat)
    ensures (a % U32_LIMIT + b) % U32_LIMIT == (a + b) % U32_LIMIT
  {
    var q := a / U32_LIMIT;
    assert a == q * U32_LIMIT + a % U32_LIMIT;
  }

  /** The `k`-th record sits at `offset + k * size`, reduced modulo 2^32. */
  lemma {:induction false} PositionIsStrided(start: u32, stride: u8, k: nat)
    ensures Position(start, stride, k) == (start + k * stride) % U32_LIMIT
    decreases k
  {
    if k > 0 {
      PositionIsStrided(WrappingAdd32(start, stride), stride, k - 1);
      ModAdd(start + stride, (k - 1) * stride);
      assert start + stride + (k - 1) * stride == start + k * stride;
    }
  }

  /** The record decoded at position `p`, if its window lies inside the image. */
  function EntryAt(blob: Bytes, p: u32, dec: Decoders): Option<BootEntry> {
    if p + EntryBytes <= |blob| then Some(dec.entry(blob[p..p + EntryBytes])) else None
  }

  /** What a successful walk returned: its `j`-th item comes from the record at
      `offset + j * size`, which has non-zero size and whose data slice lies in
      the image and has exactly `data_size` bytes. */
  lemma {:induction false} WalkItemAt(blob: Bytes, entryType: u16, stride: u8, start: u32, remaining: nat, dec: Decoders, j: nat)
    requires Walk(blob, entryType, stride, start, remaining, dec).Success?
    requires j < |Walk(blob, entryType, stride, start, remaining, dec).value|
    ensures EntryAt(blob, Position(start, stride, j), dec).Some?
    ensures var e := EntryAt(blob, Position(start, stride, j), dec).value;
            && e.size != 0
            && e.dataOffset + e.dataSize <= |blob|
            && Walk(blob, entryType, stride, start, remaining, dec).value[j] == ItemOf(entryType, e, blob)
            && |Walk(blob, entryType, stride, start, remaining, dec).value[j].data| == e.dataSize
    decreases remaining
  {
    assert Position(start, stride, 0) == start;
    var e := dec.entry(blob[start..start + EntryBytes]);
    if e.size == 0 {
      ZeroSizeEntrySticks(blob, entryType, stride, start, remaining, dec);
      assert false;
    }
    if j > 0 {
      var next := WrappingAdd32(start, stride);
      WalkItemAt(blob, entryType, stride, next, remaining - 1, dec, j - 1);
      PositionStep(start, stride, j - 1);
    }
  }

  /** Reading past the image fails the walk: when the records at
      `offset + k * size` for every `k < j` lie in the image with non-zero size
      and in-bounds data, and the `j`-th record read (`j < count`) has its
      window past the image's end, or has non-zero size and a data slice past
      it, the walk fails with `OutOfBounds`. */
  lemma {:induction false} WalkFailsPastImage(blob: Bytes, entryType: u16, stride: u8, start: u32, remaining: nat, dec: Decoders, j: nat)
    requires j < remaining
    requires forall k | 0 <= k < j ::
               NonZeroAt(blob, Position(start, stride, k), dec)
               && ItemInBounds(blob, EntryAt(blob, Position(start, stride, k), dec).value)
    requires var e := EntryAt(blob, Position(start, stride, j), dec);
             e.None? || (e.value.size != 0 && !ItemInBounds(blob, e.value))
    ensures Walk(blob, entryType, stride, start, remaining, dec) == Failure(OutOfBounds)
    decreases j
  {
    assert Position(start, stride, 0) == start;
    if j > 0 {
      var next := WrappingAdd32(start, stride);
      forall k | 0 <= k < j - 1
        ensures NonZeroAt(blob, Position(next, stride, k), dec)
                && ItemInBounds(blob, EntryAt(blob, Position(next, stride, k), dec).value)
      {
        PositionStep(start, stride, k);
      }
      PositionStep(start, stride, j - 1);
      WalkFailsPastImage(blob, entryType, stride, next, remaining - 1, dec, j - 1);
      assert NonZeroAt(blob, Position(start, stride, 0), dec);
    }
  }

  /** When a successful walk returns fewer items than `count`, the record
      where it stopped, at `offset + n * size` with `n` items returned, has
      size zero. */
  lemma {:induction false} WalkStopsAtZeroSize(blob: Bytes, entryType: u16, stride: u8, start: u32, remaining: nat, dec: Decoders)
    requires Walk(blob, entryType, stride, start, remaining, dec).Success?
    requires |Walk(blob, entryType, stride, start, remaining, dec).value| < remaining
    ensures var n := |Walk(blob, entryType, stride, start, remaining, dec).value|;
            && EntryAt(blob, Position(start, stride, n), dec).Some?
            && EntryAt(blob, Position(start, stride, n), dec).value.size == 0
    decreases remaining
  {
    assert Position(start, stride, 0) == start;
    assert ParseBootEntry(blob, start, dec).Success?;
    var e := dec.entry(blob[start..start + EntryBytes]);
    if e.size == 0 {
      ZeroSizeEntrySticks(blob, entryType, stride, start, remaining, dec);
    } else {
      var next := WrappingAdd32(start, stride);
      var rest := Walk(blob, entryType, stride, next, remaining - 1, dec);
      assert rest.Success?;
      assert |Walk(blob, entryType, stride, start, remaining, dec).value| == |rest.value| + 1;
      WalkStopsAtZeroSize(blob, entryType, stride, next, remaining - 1, dec);
      PositionStep(start, stride, |rest.value|);
    }
  }

  /** A record of size zero is never stepped over: every remaining iteration
      re-reads it and skips it, so nothing after it is returned. */
  lemma {:induction false} ZeroSizeEntrySticks(blob: Bytes, entryType: u16, stride: u8, start: u32, remaining: nat, dec: Decoders)
    requires start + EntryBytes <= |blob|
    requires dec.entry(blob[start..start + EntryBytes]).size == 0
    ensures Walk(blob, entryType, stride, start, remaining, dec) == Success([])
    decreases remaining
  {
    if remaining > 0 {
      ZeroSizeEntrySticks(blob, entryType, stride, start, remaining - 1, dec);
    }
  }

  /** The first `split` items are 0x471 items, at most as many as the header
      announces, and the rest are 0x472 items, likewise bounded. */
  predicate KindsSplitAt(items: seq<Item>, split: int, h: BootHeader) {
    && 0 <= split <= |items|
    && split <= h.entry471.count && |items| - split <= h.entry472.count
    && (forall i | 0 <= i < split :: items[i].entryType == Entry471)
    && (forall i | split <= i < |items| :: items[i].entryType == Entry472)
  }

  /** The 0x471 walk described by a decoded header. */
  function Walk471(blob: Bytes, h: BootHeader, dec: Decoders): Result<seq<Item>, ParseError> {
    Walk(blob, Entry471, h.entry471.size, h.entry471.offset, h.entry471.count, dec)
  }

  /** The 0x472 walk described by a decoded header. */
  function Walk472(blob: Bytes, h: BootHeader, dec: Decoders): Result<seq<Item>, ParseError> {
    Walk(blob, Entry472, h.entry472.size, h.entry472.offset, h.entry472.count, dec)
  }

  /** `parse_boot_entries`: the header from the image's first bytes, then the
      0x471 records, then the 0x472 records. */
  function ParseBootEntries(blob: Bytes, dec: Decoders): (r: Result<seq<Item>, ParseError>)
    // the header window must fit, and must decode
    ensures |blob| < HeaderBytes ==> r == Failure(OutOfBounds)
    ensures |blob| >= HeaderBytes && dec.header(blob[..HeaderBytes]).None? ==> r == Failure(HeaderCorrupt)
    ensures r == Failure(HeaderCorrupt) ==> |blob| >= HeaderBytes && dec.header(blob[..HeaderBytes]).None?
    // success exactly when the header decodes and both walks succeed; the
    // 0x471 items come first, then the 0x472 items, each kind at most `count` times
    ensures r.Success? <==>
              && |blob| >= HeaderBytes && dec.header(blob[..HeaderBytes]).Some?
              && Walk471(blob, dec.header(blob[..HeaderBytes]).value, dec).Success?
              && Walk472(blob, dec.header(blob[..HeaderBytes]).value, dec).Success?
    ensures r.Success? ==>
              var h := dec.header(blob[..HeaderBytes]).value;
              var split := |Walk471(blob, h, dec).value|;
              && KindsSplitAt(r.value, split, h)
              && r.value[..split] == Walk471(blob, h, dec).value
              && r.value[split..] == Walk472(blob, h, dec).value
    // a failing walk's error is the result, the 0x471 walk's first
    ensures |blob| >= HeaderBytes && dec.header(blob[..HeaderBytes]).Some? ==>
              var h := dec.header(blob[..HeaderBytes]).value;
              && (Walk471(blob, h, dec).Failure? ==> r == Failure(Walk471(blob, h, dec).error))
              && (Walk471(blob, h, dec).Success? && Walk472(blob, h, dec).Failure? ==> r == Failure(Walk472(blob, h, dec).error))
  {
    if |blob| < HeaderBytes then Failure(OutOfBounds)
    else
      match dec.header(blob[..HeaderBytes])
      case None => Failure(HeaderCorrupt)
      case Some(h) =>
        match Walk471(blob, h, dec)
        case Failure(e) => Failure(e)
        case Success(first) =>
          match Walk472(blob, h, dec)
          case Failure(e) => Failure(e)
          case Success(second) =>
            assert KindsSplitAt(first + second, |first|, h);
            assert (first + second)[..|first|] == first;
            assert (first + second)[|first|..] == second;
            Success(first + second)
  }

  /** The walk as evidently intended: a record of size zero is skipped and the
      range still moves on to the next record. */
  function WalkAdvancing(blob: Bytes, entryType: u16, stride: u8, start: u32, remaining: nat, dec: Decoders)
    : (r: Result<seq<Item>, ParseError>)
    ensures r.Success? ==> |r.value| <= remaining
    ensures r.Success? ==> forall i | 0 <= i < |r.value| :: r.value[i].entryType == entryType
    decreases remaining
  {
    if remaining == 0 then Success([])
    else
      match ParseBootEntry(blob, start, dec)
      case Failure(err) => Failure(err)
      case Success(e) =>
        var next := WrappingAdd32(start, stride);
        if e.size == 0 then WalkAdvancing(blob, entryType, stride, next, remaining - 1, dec)
        else if e.dataOffset + e.dataSize > |blob| then Failure(OutOfBounds)
        else
          match WalkAdvancing(blob, entryType, stride, next, remaining - 1, dec)
          case Failure(err) => Failure(err)
          case Success(rest) => Success([ItemOf(entryType, e, blob)] + rest)
  }

  /** Whether the record at position `p` lies in the image and has non-zero size. */
  predicate NonZeroAt(blob: Bytes, p: u32, dec: Decoders) {
    EntryAt(blob, p, dec).Some? && EntryAt(blob, p, dec).value.size != 0
  }

  /** Every element plus one. */
  function Shift(s: seq<nat>): (r: seq<nat>)
    ensures |r| == |s| && forall i | 0 <= i < |s| :: r[i] == s[i] + 1
  {
    seq(|s|, i requires 0 <= i < |s| => s[i] + 1)
  }

  predicate Increasing(s: seq<nat>) {
    forall i, j | 0 <= i < j < |s| :: s[i] < s[j]
  }

  /** The positions of the set flags, in increasing order. */
  function IndicesOf(f: seq<bool>): (r: seq<nat>)
    ensures forall i | 0 <= i < |r| :: r[i] < |f|
    decreases |f|
  {
    if |f| == 0 then [] else (if f[0] then [0] else []) + Shift(IndicesOf(f[1..]))
  }

  /** Shifting moves every member up by one. */
  lemma InShift(head: seq<nat>, later: seq<nat>, k: nat)
    requires k in later
    ensures k + 1 in head + Shift(later)
  {
    var i :| 0 <= i < |later| && later[i] == k;
    assert (head + Shift(later))[|head| + i] == k + 1;
  }

  /** Shifting keeps an increasing list increasing, and a leading zero stays below it. */
  lemma ShiftIncreasing(head: seq<nat>, later: seq<nat>)
    requires head == [] || head == [0]
    requires Increasing(later)
    ensures Increasing(head + Shift(later))
  {
    var r := head + Shift(later);
    forall i, j | 0 <= i < j < |r|
      ensures r[i] < r[j]
    {
      if i >= |head| {
        assert r[i] == later[i - |head|] + 1 && r[j] == later[j - |head|] + 1;
      } else {
        assert r[j] == later[j - 1] + 1;
      }
    }
  }

  /** `IndicesOf` lists only set flags. */
  lemma {:induction false} IndicesOfSound(f: seq<bool>)
    ensures forall i | 0 <= i < |IndicesOf(f)| :: f[IndicesOf(f)[i]]
    decreases |f|
  {
    if |f| > 0 {
      var head: seq<nat> := if f[0] then [0] else [];
      var later := IndicesOf(f[1..]);
      IndicesOfSound(f[1..]);
      forall i | |head| <= i < |head + Shift(later)|
        ensures f[(head + Shift(later))[i]]
      {
        assert (head + Shift(later))[i] == later[i - |head|] + 1;
        assert f[1..][later[i - |head|]];
      }
    }
  }

  /** `IndicesOf` misses no set flag. */
  lemma {:induction false} IndicesOfComplete(f: seq<bool>, k: nat)
    requires k < |f| && f[k]
    ensures k in IndicesOf(f)
    decreases |f|
  {
    var head: seq<nat> := if f[0] then [0] else [];
    var later := IndicesOf(f[1..]);
    if k == 0 {
      assert (head + Shift(later))[0] == 0;
    } else {
      assert f[1..][k - 1];
      IndicesOfComplete(f[1..], k - 1);
      InShift(head, later, k - 1);
    }
  }

  /** `IndicesOf` lists each set flag once, in increasing order. */
  lemma {:induction false} IndicesOfIncreasing(f: seq<bool>)
    ensures Increasing(IndicesOf(f))
    decreases |f|
  {
    if |f| > 0 {
      IndicesOfIncreasing(f[1..]);
      ShiftIncreasing(if f[0] then [0] else [], IndicesOf(f[1..]));
    }
  }

  /** For each of the `n` strided records, whether it lies in the image and has non-zero size. */
  function NonZeroFlags(blob: Bytes, stride: u8, start: u32, n: nat, dec: Decoders): (f: seq<bool>)
    ensures |f| == n
  {
    seq(n, k requires 0 <= k < n => NonZeroAt(blob, Position(start, stride, k), dec))
  }

  /** The indices `k < n`, in increasing order, of the records of non-zero
      size among those at `start + k * stride`. */
  function NonZeroIndices(blob: Bytes, stride: u8, start: u32, n: nat, dec: Decoders): seq<nat> {
    IndicesOf(NonZeroFlags(blob, stride, start, n, dec))
  }

  /** One step of `NonZeroIndices`: the first record, then the rest shifted by one. */
  lemma NonZeroIndicesUnfold(blob: Bytes, stride: u8, start: u32, n: nat, dec: Decoders)
    requires n > 0
    ensures NonZeroIndices(blob, stride, start, n, dec)
            == (if NonZeroAt(blob, start, dec) then [0] else [])
               + Shift(NonZeroIndices(blob, stride, WrappingAdd32(start, stride), n - 1, dec))
  {
    var f := NonZeroFlags(blob, stride, start, n, dec);
    var g := NonZeroFlags(blob, stride, WrappingAdd32(start, stride), n - 1, dec);
    assert f[1..] == g by {
      forall k | 0 <= k < n - 1
        ensures f[1..][k] == g[k]
      {
        assert Position(start, stride, k + 1) == Position(WrappingAdd32(start, stride), stride, k);
      }
    }
    assert f[0] == NonZeroAt(blob, start, dec);
  }

  /** The reference list holds exactly the strided records of non-zero size,
      each once, in the order the loop visits them. */
  lemma NonZeroIndicesExact(blob: Bytes, stride: u8, start: u32, n: nat, dec: Decoders)
    ensures var r := NonZeroIndices(blob, stride, start, n, dec);
            && (forall i | 0 <= i < |r| :: r[i] < n && NonZeroAt(blob, Position(start, stride, r[i]), dec))
            && (forall k: nat | k < n && NonZeroAt(blob, Position(start, stride, k), dec) :: k in r)
            && Increasing(r)
  {
    var f := NonZeroFlags(blob, stride, start, n, dec);
    IndicesOfSound(f);
    IndicesOfIncreasing(f);
    forall k: nat | k < n && NonZeroAt(blob, Position(start, stride, k), dec)
      ensures k in IndicesOf(f)
    {
      IndicesOfComplete(f, k);
    }
  }

  /** The record of non-zero size that the `j`-th item of the intended walk
      should come from. */
  function RecordFor(blob: Bytes, stride: u8, start: u32, n: nat, dec: Decoders, j: nat): BootEntry
    requires j < |NonZeroIndices(blob, stride, start, n, dec)|
  {
    NonZeroIndicesExact(blob, stride, start, n, dec);
    EntryAt(blob, Position(start, stride, NonZeroIndices(blob, stride, start, n, dec)[j]), dec).value
  }

  /** One step of the intended walk over a record in the image. */
  lemma WalkAdvancingUnfold(blob: Bytes, entryType: u16, stride: u8, start: u32, remaining: nat, dec: Decoders)
    requires remaining > 0
    requires WalkAdvancing(blob, entryType, stride, start, remaining, dec).Success?
    ensures start + EntryBytes <= |blob|
    ensures var e := dec.entry(blob[start..start + EntryBytes]);
            var rest := WalkAdvancing(blob, entryType, stride, WrappingAdd32(start, stride), remaining - 1, dec);
            && rest.Success?
            && (NonZeroAt(blob, start, dec) <==> e.size != 0)
            && (e.size == 0 ==> WalkAdvancing(blob, entryType, stride, start, remaining, dec).value == rest.value)
            && (e.size != 0 ==>
                  ItemInBounds(blob, e)
                  && WalkAdvancing(blob, entryType, stride, start, remaining, dec).value == [ItemOf(entryType, e, blob)] + rest.value)
  {
  }

  /** The intended walk returns one item per record of non-zero size. */
  lemma {:induction false} WalkAdvancingCount(blob: Bytes, entryType: u16, stride: u8, start: u32, remaining: nat, dec: Decoders)
    requires WalkAdvancing(blob, entryType, stride, start, remaining, dec).Success?
    ensures |WalkAdvancing(blob, entryType, stride, start, remaining, dec).value|
            == |NonZeroIndices(blob, stride, start, remaining, dec)|
    decreases remaining
  {
    if remaining > 0 {
      WalkAdvancingUnfold(blob, entryType, stride, start, remaining, dec);
      NonZeroIndicesUnfold(blob, stride, start, remaining, dec);
      WalkAdvancingCount(blob, entryType, stride, WrappingAdd32(start, stride), remaining - 1, dec);
    }
  }

  /** Past the first record, the `j`-th listed record is the one listed
      `j - h` places further into the rest, `h` being 1 when the first record
      is itself listed. */
  lemma RecordForShift(blob: Bytes, stride: u8, start: u32, n: nat, dec: Decoders, j: nat, h: nat)
    requires n > 0 && h == (if NonZeroAt(blob, start, dec) then 1 else 0)
    requires h <= j < |NonZeroIndices(blob, stride, start, n, dec)|
    ensures j - h < |NonZeroIndices(blob, stride, WrappingAdd32(start, stride), n - 1, dec)|
    ensures RecordFor(blob, stride, start, n, dec, j) == RecordFor(blob, stride, WrappingAdd32(start, stride), n - 1, dec, j - h)
  {
    var later := NonZeroIndices(blob, stride, WrappingAdd32(start, stride), n - 1, dec);
    NonZeroIndicesUnfold(blob, stride, start, n, dec);
    assert NonZeroIndices(blob, stride, start, n, dec)[j] == later[j - h] + 1;
    PositionStep(start, stride, later[j - h]);
  }

  /** The `j`-th item of the intended walk is that of the `j`-th record of
      non-zero size, whose data slice lies in the image. */
  lemma {:induction false} WalkAdvancingItemAt(blob: Bytes, entryType: u16, stride: u8, start: u32, remaining: nat, dec: Decoders, j: nat)
    requires WalkAdvancing(blob, entryType, stride, start, remaining, dec).Success?
    requires j < |WalkAdvancing(blob, entryType, stride, start, remaining, dec).value|
    ensures j < |NonZeroIndices(blob, stride, start, remaining, dec)|
    ensures ItemInBounds(blob, RecordFor(blob, stride, start, remaining, dec, j))
    ensures WalkAdvancing(blob, entryType, stride, start, remaining, dec).value[j]
            == ItemOf(entryType, RecordFor(blob, stride, start, remaining, dec, j), blob)
    decreases remaining
  {
    WalkAdvancingCount(blob, entryType, stride, start, remaining, dec);
    WalkAdvancingUnfold(blob, entryType, stride, start, remaining, dec);
    var next := WrappingAdd32(start, stride);
    var e := dec.entry(blob[start..start + EntryBytes]);
    var h := if e.size == 0 then 0 else 1;
    if j < h {
      NonZeroIndicesUnfold(blob, stride, start, remaining, dec);
      assert Position(start, stride, 0) == start;
      assert RecordFor(blob, stride, start, remaining, dec, 0) == e;
    } else {
      WalkAdvancingItemAt(blob, entryType, stride, next, remaining - 1, dec, j - h);
      RecordForShift(blob, stride, start, remaining, dec, j, h);
    }
  }

  /** The intended walk returns, in order, the item of every record of
      non-zero size among the `count` strided records, whatever sizes came
      before it: its `j`-th item is that of the `j`-th such record. */
  lemma WalkAdvancingReturnsEveryRecord(blob: Bytes, entryType: u16, stride: u8, start: u32, remaining: nat, dec: Decoders)
    requires WalkAdvancing(blob, entryType, stride, start, remaining, dec).Success?
    ensures var r := WalkAdvancing(blob, entryType, stride, start, remaining, dec).value;
            && |r| == |NonZeroIndices(blob, stride, start, remaining, dec)|
            && forall j | 0 <= j < |r| ::
                 var e := RecordFor(blob, stride, start, remaining, dec, j);
                 e.dataOffset + e.dataSize <= |blob| && r[j] == ItemOf(entryType, e, blob)
  {
    WalkAdvancingCount(blob, entryType, stride, start, remaining, dec);
    forall j | 0 <= j < |WalkAdvancing(blob, entryType, stride, start, remaining, dec).value|
      ensures var e := RecordFor(blob, stride, start, remaining, dec, j);
              e.dataOffset + e.dataSize <= |blob|
              && WalkAdvancing(blob, entryType, stride, start, remaining, dec).value[j] == ItemOf(entryType, e, blob)
    {
      WalkAdvancingItemAt(blob, entryType, stride, start, remaining, dec, j);
    }
  }

  /** Two records, the first of size zero: as written the second is never
      read, as intended it is returned. Record byte 0 is taken as the size
      field, as in the Rockchip record layout. */
  lemma ZeroSizeEntryHidesNextRecord()
    ensures var dec := Decoders(_ => None, SampleEntry);
            var blob := seq(EntryBytes, _ => 0) + seq(EntryBytes, _ => 1);
            && Walk(blob, Entry471, EntryBytes, 0, 2, dec) == Success([])
            && WalkAdvancing(blob, Entry471, EntryBytes, 0, 2, dec) == Success([Item(Entry471, 0, [0])])
  {
    var dec := Decoders(_ => None, SampleEntry);
    var blob: Bytes := seq(EntryBytes, _ => 0) + seq(EntryBytes, _ => 1);
    assert blob[0..EntryBytes][0] == 0;
    assert blob[EntryBytes..2 * EntryBytes][0] == 1;
    ZeroSizeEntrySticks(blob, Entry471, EntryBytes, 0, 2, dec);
    assert WrappingAdd32(0, EntryBytes) == EntryBytes;
    assert dec.entry(blob[EntryBytes..EntryBytes + EntryBytes]) == BootEntry(1, 0, 1, 0);
    assert WrappingAdd32(EntryBytes, EntryBytes) == 2 * EntryBytes;
    assert WalkAdvancing(blob, Entry471, EntryBytes, 2 * EntryBytes, 0, dec) == Success([]);
    assert blob[0..1] == [0];
    assert ParseBootEntry(blob, EntryBytes, dec) == Success(BootEntry(1, 0, 1, 0));
    assert ItemOf(Entry471, BootEntry(1, 0, 1, 0), blob) == Item(Entry471, 0, [0]);
    assert [Item(Entry471, 0, [0])] + [] == [Item(Entry471, 0, [0])];
    assert WalkAdvancing(blob, Entry471, EntryBytes, EntryBytes, 1, dec) == Success([Item(Entry471, 0, [0])]);
  }

  /** A record decoder for the example above: size from byte 0; a record of
      non-zero size points at the image's first byte. */
  function SampleEntry(w: Bytes): BootEntry {
    if |w| > 0 && w[0] != 0 then BootEntry(w[0], 0, 1, 0) else BootEntry(0, 0, 0, 0)
  }

  datatype BootMode = Maskrom | Loader

  /** A USB version as `DeviceDescriptor::usb_version()` reports it. */
  datatype UsbVersion = UsbVersion(major: u8, minor: u8, subMinor: u8)

  /** The part of `rusb::DeviceDescriptor` the conversion reads. */
  datatype DeviceDescriptor = DeviceDescriptor(usbVersion: UsbVersion)

  /** `impl From<DeviceDescriptor> for BootMode`: the low bit of the
      sub-minor version number. */
  function BootModeFrom(dd: DeviceDescriptor): (m: BootMode)
    ensures m == Maskrom <==> dd.usbVersion.subMinor % 2 == 0
    ensures m == Loader <==> dd.usbVersion.subMinor % 2 == 1
  {
    var bit := (dd.usbVersion.subMinor as bv8) & 1;
    if bit == 0 then Maskrom
    else if bit == 1 then Loader
    else assert false; Maskrom
  }

  /** The enum's declared discriminants, `Maskrom = 0` and `Loader = 1`. */
  function Discriminant(m: BootMode): nat {
    match m
    case Maskrom => 0
    case Loader => 1
  }

  /** The mode's discriminant is the parity of the sub-minor version. */
  lemma DiscriminantIsParity(dd: DeviceDescriptor)
    ensures Discriminant(BootModeFrom(dd)) == dd.usbVersion.subMinor % 2
  {
  }
}

=== FILE: seqs.dfy ===
/** Facts about sequences used by more than one module. */
module Seqs {

  lemma ConcatAssoc<T>(a: seq<T>, b: seq<T>, c: seq<T>)
    ensures a + b + c == a + (b + c)
  {
  }
}

=== FILE: wrappers.dfy ===
/** Option and Result datatypes shared by every module. */
module Wrappers {

  datatype Option<+T> = None | Some(value: T)

  datatype Result<+R, +E> = Success(value: R) | Failure(error: E)
}
